=== FILE: README.md ===
# fs-blog-admin post form, modelled in Dafny

This project models the post-authoring form of the fs-blog-admin dashboard and the
three components around it:

- **PostForm**: the form's state machine. Its state is the post being edited, the
  thumbnail preview, the URL of the last uploaded body image, the upload flag and the
  `blogPost` draft slot of local storage. It has one step per event:
  - hydration from an initial post and the effect's cleanup;
  - a field edit;
  - the start and the finish of an image upload;
  - copy to the clipboard;
  - submit;
  - reset.

  Submit runs four non-blank checks in order. It derives the slug from the title and
  normalises the tag field (split on `,`, trim each piece, keep the first four). It then
  assembles the form body: the post with `tags` replaced by the JSON text of the tag
  array (sections 5 and 7 of RFC 8259), and `slug` set.
- **UpdatePost**: the edit page. It loads a post, or shows the not-found view for
  good once loading fails. It flattens fetched tag arrays to one `", "`-joined string
  and sends updates for the loaded post's `id` while it is busy.
- **SearchForm**: the search box. It blocks blank queries, and reset and Escape clear
  the results.
- **PostCard**: the card strings (image fallback, 80-character excerpt, tag line,
  edit link) and the route the edit link leads to.

Supporting modules:

| module | models |
|---|---|
| `Base` | `Option`, `Result` |
| `Text` | JavaScript's `trim`, `split` on one character, `join` and `includes` |
| `Json` | `JSON.stringify` of a string array, plus a reader that inverts it |
| `JsObject` | plain objects as insertion-ordered entry lists with spread-style `Set`, truthiness and `String()`, and `FormData` |
| `Slug` | the title-to-slug pipeline |
| `Tags` | tag normalisation |

A JavaScript `TypeError` escaping a handler is a `Throw` effect. The state keeps every
change a setter made before the throw and nothing after it: most handlers throw before
any setter, so their state is unchanged, but `UpdatePost.StartUpdate` leaves `busy`
raised and `UpdatePost.FinishUpdate` leaves it lowered. A value of a post field is `undefined`, a string, a boolean, a file or an
array of strings.

The model follows the code where it differs from the component's documented intent:
- A successful submit does not clear the draft slot.
- The tag-count warning reads the tags held before the edit.
- The meta branch reads the meta held before the edit and calls the nonexistent
  `value.subString`, so once that meta reaches 150 characters every meta edit throws
  instead of clamping.

## Model

| member | source | states |
|---|---|---|
| `PostForm.Mount` | src/components/PostForm.jsx:30-33 | a mounted form holds the default post, no preview, nothing to copy, no upload in flight, and whatever the draft slot held |
| `PostForm.MountedSubmitRefused` | src/components/PostForm.jsx:14-21 | submitting a freshly mounted form reports "Title is missing" and submits nothing |
| `PostForm.MountThenHydrate` | src/components/PostForm.jsx:30-43 | a post handed to a freshly mounted form becomes its post, with that post's thumbnail as the preview and the stored draft kept |
| `PostForm.Hydrate` | src/components/PostForm.jsx:39-43 | a present initial post becomes the form's post and its thumbnail the preview; an absent one changes nothing; the upload state and draft slot are untouched |
| `PostForm.Cleanup` | src/components/PostForm.jsx:44-46 | the effect's cleanup resets the form exactly when `resetAfterSubmit` is set |
| `PostForm.RerunWithReset` | src/components/PostForm.jsx:39-47 | with `resetAfterSubmit`, a new initial post first empties the draft slot, then fills the form and the preview |
| `PostForm.PickThumbnail` | src/components/PostForm.jsx:54-62 | no file throws; a file whose type lacks "image" is refused with an alert and no state change; the draft slot is never written; no field but `thumbnail` changes |
| `PostForm.NonImageThumbnailRefused` | src/components/PostForm.jsx:57-58 | a non-image thumbnail leaves the whole form, draft included, unchanged and raises the alert |
| `PostForm.ImageThumbnailTaken` | src/components/PostForm.jsx:60-61 | an image file becomes the post's `thumbnail` and its object URL the preview |
| `PostForm.FeaturedToggled` | src/components/PostForm.jsx:64-70 | toggling `featured` stores the checkbox as a boolean and writes that post to the draft slot, raising nothing |
| `PostForm.TagWarning` | src/components/PostForm.jsx:72-79 | only a tag edit can warn or throw, and it throws exactly when the previous tags are not a string |
| `PostForm.TagEditWarns` | src/components/PostForm.jsx:72-79 | a tag edit warns exactly when the previous tags hold four or more commas; the edit is applied either way |
| `PostForm.LongMetaThrows` | src/components/PostForm.jsx:81-83 | a meta edit throws, changing nothing, once the previous meta has 150 or more characters |
| `PostForm.MetaEditOutcome` | src/components/PostForm.jsx:81-89 | a meta edit throws, changing nothing, exactly when the previous meta is `undefined` or a string or array of length 150 or more; otherwise the typed value is stored and drafted with no effect |
| `PostForm.Change` | src/components/PostForm.jsx:49-90 | an edit never touches the upload state, only a thumbnail edit changes the preview, a throw leaves the form unchanged, the draft slot either stays or receives exactly the new post, no field other than the target's name changes, a `featured` toggle raises nothing, a tag edit throws exactly when the previous tags are not a string, and a meta edit throws exactly when the meta branch's `length` test fails or is taken |
| `PostForm.EditChangesOnlyThatKey` | src/components/PostForm.jsx:85-89 | a text edit that does not throw sets that key to the typed string, leaves every other key as it was, and writes exactly the new post to the draft slot |
| `PostForm.PlainEditQuiet` | src/components/PostForm.jsx:49-90 | editing a field other than thumbnail, featured, tags and meta raises nothing |
| `PostForm.StartUpload` | src/components/PostForm.jsx:94-104 | a start while uploading is a no-op; no file throws; the flag rises exactly when one upload request is sent; post, draft, URL to copy and thumbnail preview are unchanged |
| `PostForm.NonImageUploadRefused` | src/components/PostForm.jsx:97-100 | a non-image file gives an error notification and no state change |
| `PostForm.FinishUpload` | src/components/PostForm.jsx:106-109 | the flag drops; an error is shown and the previous URL kept; a success makes the URL available to copy; post, draft and thumbnail preview are unchanged |
| `PostForm.UploadSingleFlight` | src/components/PostForm.jsx:94-110 | an accepted start sends exactly one `image` part, a second start while in flight is ignored, and the flag is down after the outcome, a failure keeping the old URL |
| `PostForm.Copy` | src/components/PostForm.jsx:114-118 | the clipboard receives the Markdown image tag built around the URL to copy, then a success notification; the form is unchanged |
| `PostForm.CopyAfterUpload` | src/components/PostForm.jsx:106-118 | after a successful upload, the copied tag holds exactly the returned URL between the opening text and the closing parenthesis |
| `PostForm.SubmitForm` | src/components/PostForm.jsx:121-151 | submit leaves the form untouched and has exactly one outcome, which is a submission exactly when all four required fields are non-blank strings |
| `PostForm.CheckFilled` | src/components/PostForm.jsx:125 | one check passes exactly for a string that is not blank after trimming, and a failure is never a submission |
| `PostForm.FirstFailureNone` | src/components/PostForm.jsx:123-130 | no check fails exactly when every checked field is filled |
| `PostForm.FirstFailureAt` | src/components/PostForm.jsx:123-130 | checks run in order: with all earlier fields filled, the first unfilled one decides the outcome |
| `PostForm.SubmitReportsFirstBlank` | src/components/PostForm.jsx:123-130 | the first blank field in the order title, content, tags, meta yields its own error message and nothing is submitted |
| `PostForm.SubmitThrowsOnNonString` | src/components/PostForm.jsx:123-130 | the first required field that is not a string makes submit throw |
| `PostForm.SubmitBlankTags` | src/components/PostForm.jsx:128 | with title and content filled, an empty tag field is reported as "Tags are necessary" |
| `PostForm.PassIffReady` | src/components/PostForm.jsx:123-130 | the four checks, run in order, all pass exactly when title, content, tags and meta are strings that are not blank |
| `PostForm.PassIsReady` | src/components/PostForm.jsx:123-130 | when no check fails, every required field is filled and title and tags are strings |
| `PostForm.SubmitPayload` | src/components/PostForm.jsx:139-150 | the submitted body has the post's keys in order with `slug` appended unless present; `tags` is JSON text that reads back as the normalised tags; `slug` is the title's slug; every other part is the post's own |
| `PostForm.PayloadNames` | src/components/PostForm.jsx:145-148 | the body's part names are the post's keys, with `slug` last unless already present |
| `PostForm.PayloadTagsAndSlug` | src/components/PostForm.jsx:139-147 | the `tags` and `slug` parts carry the JSON tag array and the slug, and the JSON reads back as the tags |
| `PostForm.PayloadOthers` | src/components/PostForm.jsx:145-148 | every part other than `tags` and `slug` equals the post's own |
| `PostForm.DigitsOnlyTitleSubmitted` | src/components/PostForm.jsx:125-137 | the title "2024" passes the title check and is submitted with an empty slug |
| `PostForm.Reset` | src/components/PostForm.jsx:153-156 | reset restores the default post and empties the draft slot, leaving preview, URL to copy and upload flag alone |
| `PostForm.DefaultPostDistinct` | src/components/PostForm.jsx:14-21 | the default post names each of its six fields once |
| `PostForm.ChangeKeepsKeysDistinct` | src/components/PostForm.jsx:60-87 | every edit's object spread keeps the post's keys distinct |
| `PostForm.UploadKeepsKeysDistinct` | src/components/PostForm.jsx:94-110 | the upload steps leave the post's keys distinct |
| `PostForm.ResetKeysDistinct` | src/components/PostForm.jsx:153-156 | reset restores a post whose keys are distinct, whatever the form held |
| `PostForm.ResetThenSubmit` | src/components/PostForm.jsx:14-21 | reset is idempotent, and a reset form fails the title check first |
| `Slug.SlugShape` | src/components/PostForm.jsx:132-137 | every slug is lower-case ASCII words joined by single dashes, with no leading, trailing or doubled dash |
| `Slug.SlugLetters` | src/components/PostForm.jsx:132-137 | the slug's letters are the title's ASCII letters, lower-cased, in order |
| `Slug.SlugEmptyIff` | src/components/PostForm.jsx:132-137 | the slug is empty exactly when the title has no ASCII letter |
| `Slug.SlugifyIdempotent` | src/components/PostForm.jsx:132-137 | slugging a slug returns it unchanged |
| `Slug.SlugOfLetters` | src/components/PostForm.jsx:132-137 | a run of ASCII letters is one word: its slug is the run lower-cased, so camel case is never split |
| `Slug.SlugAtSeparator` | src/components/PostForm.jsx:132-137 | a non-letter character splits the title: the slug is the slugs of the two sides joined by one dash, or whichever side is non-empty |
| `Slug.WordsAtSeparator` | src/components/PostForm.jsx:132-137 | the words of a title split at a non-letter are the words of the left side followed by those of the right |
| `Slug.ScrubbedAtSeparator` | src/components/PostForm.jsx:133-134 | lowering and scrubbing turn a non-letter into a space between the scrubbed text of each side |
| `Slug.KeepAppend` | src/components/PostForm.jsx:136 | dropping blank pieces distributes over concatenation |
| `Text.SplitAtSeparator` | src/components/PostForm.jsx:135 | splitting at a separator character gives the pieces of each side, in order |
| `Text.JoinAppend` | src/components/PostForm.jsx:137 | joining two non-empty lists is the two joins around one separator |
| `Slug.SlugExample` | src/components/PostForm.jsx:132-137 | "Hello, World! 2024" becomes "hello-world" |
| `Slug.DigitsOnlyTitle` | src/components/PostForm.jsx:132-137 | "2024" becomes the empty slug |
| `Tags.Normalize` | src/components/PostForm.jsx:139-142 | the normalised tags are the first min(4, commas + 1) comma-separated pieces, in order, each trimmed |
| `Tags.NormalizedClean` | src/components/PostForm.jsx:139-142 | every normalised tag is trimmed and comma-free |
| `Tags.AtMostFour` | src/components/PostForm.jsx:142 | never more than four tags survive, and exactly four once there are three or more commas |
| `Tags.KeepsEmptyPiece` | src/components/PostForm.jsx:139-142 | the empty piece between two commas is kept as an empty tag |
| `Tags.ExampleFive` | src/components/PostForm.jsx:139-142 | "a, b , c,d,e" normalises to a, b, c, d |
| `Tags.NormalizeJoined` | src/components/PostForm.jsx:139-142 | clean tags joined with ", " normalise back to the first four of themselves |
| `Json.StringifyRoundTrip` | src/components/PostForm.jsx:145 | the JSON text of a string array reads back as that array |
| `JsObject.SetGet` | src/components/PostForm.jsx:85 | a spread with one key overridden reads back the new value there and the old value everywhere else |
| `JsObject.FormGetOf` | src/components/PostForm.jsx:146-148 | appending each key of an object gives a body whose names are the keys and whose parts are the values |
| `UpdatePost.FlattenTags` | src/components/UpdatePost.jsx:22 | a tag array becomes its ", "-join, missing tags stay missing, and a value with no `join` throws |
| `UpdatePost.Fetched` | src/components/UpdatePost.jsx:15-23 | a fetch error marks the page not found and is shown; a fetched post, flattened, becomes the page's post; a fetched post whose tags cannot be flattened throws and leaves the page as it was |
| `UpdatePost.FetchErrorNotFound` | src/components/UpdatePost.jsx:16-20 | after a fetch error, whatever follows, the not-found view is rendered |
| `UpdatePost.NotFoundSticks` | src/components/UpdatePost.jsx:38 | once not found, the page stays not found over any run of events |
| `UpdatePost.StartUpdate` | src/components/UpdatePost.jsx:29-31 | the page turns busy and the update targets the loaded post's `id`; with no post loaded it throws |
| `UpdatePost.FinishUpdate` | src/components/UpdatePost.jsx:32-35 | the page is idle afterwards; an error is shown and the post kept; a returned post, flattened, replaces it; a returned post whose tags cannot be flattened throws with the page idle and otherwise unchanged |
| `UpdatePost.BusyDuringUpdate` | src/components/UpdatePost.jsx:30-33 | busy is up while the update is outstanding and down after it, whatever the outcome |
| `UpdatePost.LoadFromInitial` | src/components/UpdatePost.jsx:11-22 | before the fetch settles the form shows with no post and the page idle; after it delivers a post, the form shows that post with its tags flattened |
| `UpdatePost.FlattenKeepsKeysDistinct` | src/components/UpdatePost.jsx:22 | flattening the tags keeps a post's keys distinct |
| `UpdatePost.Render` | src/components/UpdatePost.jsx:38-47 | the not-found view shows exactly when the page is not found, otherwise the form with the loaded post and busy flag |
| `UpdatePost.TagsSurviveEdit` | src/components/UpdatePost.jsx:22 | clean fetched tags flatten to a string that the form normalises back to the first four of them |
| `UpdatePost.EmptyTagsBlockResubmit` | src/components/UpdatePost.jsx:22 | a post fetched with no tags cannot be resubmitted until tags are typed: submit asks for them |
| `SearchForm.SubmitQuery` | src/components/SearchForm.jsx:9-13 | a blank query calls nothing; any other is searched verbatim, untrimmed |
| `SearchForm.NoBlankSearch` | src/components/SearchForm.jsx:9-12 | over any run of events, no search is ever made for a blank query |
| `SearchForm.TypeThenSubmit` | src/components/SearchForm.jsx:12-32 | typing then submitting searches for exactly the typed text unless it is blank |
| `SearchForm.ResetQuery` | src/components/SearchForm.jsx:15-18 | reset clears the results and empties the query |
| `SearchForm.KeyDown` | src/components/SearchForm.jsx:20-25 | Escape clears the results twice and keeps the query; other keys do nothing |
| `SearchForm.Type` | src/components/SearchForm.jsx:32 | typing sets the query to the input's value |
| `SearchForm.ShowsClearButton` | src/components/SearchForm.jsx:36-43 | the clear button shows exactly when there are search results, the length being truthy exactly when it is not zero |
| `PostCard.Render` | src/components/PostCard.js:7-26 | no post renders nothing; a post whose meta is not a string or whose tags are not an array throws; otherwise the card shows, with an image and an excerpt of at most 83 characters |
| `PostCard.ImageSrc` | src/components/PostCard.js:12 | the image is the thumbnail when truthy, else the logo, and is always truthy |
| `PostCard.ExcerptShape` | src/components/PostCard.js:18 | the excerpt is a prefix of the meta of at most 80 characters followed by "...", the whole meta when it is short enough |
| `PostCard.TagLineReadsBack` | src/components/PostCard.js:22 | the tag line is the flattened form the edit page builds, so clean tags read back from it |
| `PostCard.EditLink` | src/components/PostCard.js:26 | the link is "/update-post/" followed by the slug |
| `PostCard.Match` | src/App.js:48-53 | `/` and `/create-post` match their pages exactly; `/update-post/:slug` matches exactly when the segment after the prefix is non-empty and free of `/`, and that segment is the slug; anything else falls to the catch-all |
| `PostCard.PathOf` | src/components/PostCard.js:25-27 | the path the router matches is the longest prefix of the link without `?` or `#`; a shorter path stops at a `?` or `#` |
| `PostCard.PathOfPlain` | src/components/PostCard.js:25-27 | a link without `?` or `#` is matched whole |
| `PostCard.PathOfCut` | src/components/PostCard.js:25-27 | a link is cut at its first `?` or `#` |
| `PostCard.EditLinkRoutes` | src/App.js:51 | the link of a non-empty slug without `/`, `?` or `#` routes to the edit page for that slug |
| `PostCard.EditLinkCut` | src/App.js:48-53 | a slug holding `?` or `#` routes to the edit page for the part before it, or to the catch-all when that part is empty |
| `PostCard.SlugLinkRoutes` | src/App.js:48-53 | every non-empty slug the form derives leads back to its own edit page |
| `PostCard.EmptySlugNotFound` | src/App.js:48-53 | the link of an empty slug matches only the catch-all route |

## Left out

- Unicode case mapping: `toLowerCase` is modelled on ASCII `A`–`Z` only. JavaScript lowers two non-ASCII code points to ASCII letters before the slug's character class is applied: U+212A KELVIN SIGN becomes `k`, and U+0130 becomes `i` followed by U+0307. So the title "\u212A" has the slug "k" in the program but an empty slug in the model. These two code points are separators in the model only, and `Slug.SlugEmptyIff` and `Slug.SlugLetters` hold for the model's ASCII lowering. Every other non-ASCII character is a separator in both.
- UTF-16 code units: strings are sequences of code points, so lengths and `substring` count characters rather than UTF-16 code units.
- The draft slot holds the post record itself. Its `JSON.stringify` text is not modelled, and neither is reading the draft back, which no modelled component does.
- Object key order: a post is an insertion-ordered entry list. JavaScript's placement of integer-like keys first in `for…in` is not modelled.
- Post field values are `undefined`, strings, booleans, files and string arrays. Numbers, `null` and nested objects are not modelled.
- The api calls, the notification and search providers, `alert`, the clipboard and `onSubmit` are outputs recorded as effects. The results of `getPost`, `updatePost` and `uploadImage` are parameters. An error result is a truthy error string: an empty error string, which the code would treat as success, is not modelled.
- `URL.createObjectURL` is an opaque preview string passed in as a parameter.
- React scheduling: every handler reads the state of the render it was created in, and each async handler is split into a start step and a finish step. Interleavings of several renders are not modelled.
- The route matcher models the four routes of the router as exact matches. Case-insensitive matching, trailing slashes and percent-decoding are not modelled.
- Presentation is not modelled: JSX layout and styling, the card's title and creation date (`dateFormat`), `DeviceView`, `MarkdownHint`, and the `displayMarkdownHint` and `showDeviceView` toggles.
- `PostCard.Render` does not model `dateFormat(createdAt, "mediumDate")`: the date library throws a `TypeError` on an unparseable `createdAt`, so such a post throws in the program but is shown in the model.
- `PostCard.EditLinkRoutes` does not model the router's percent-decoding of the `:slug` parameter or its case-insensitive matching of the static segments; slugs the form derives are lower-case letters and dashes, which neither affects.
- `PostForm.Change` does not model `localStorage.setItem` throwing when storage is full or disabled. In the text branch that throw comes after `setPostInfo`, so the post would change while the draft slot does not, contrary to "a throw leaves the form unchanged". In the `featured` branch it comes before `setPostInfo`, so nothing would change.
- `PostCard.Render` states which fields make the card throw and which outcome shows, but leaves the card's field values to `ImageSrc`, `Excerpt`, `TagLine` and `EditLink`, whose own contracts state them.

=== FILE: base.dfy ===
/** Failure-carrying wrappers shared by every other module. */
module Base {

  /** A value that may be absent: a JavaScript `null`/`undefined`, or an empty storage slot. */
  datatype Option<+T> = None | Some(value: T)

  /** The outcome of a backend request: the response body, or the error message it reported. */
  datatype Result<+T, +E> = Ok(value: T) | Err(error: E)

  function Min(a: int, b: int): int
  {
    if a <= b then a else b
  }
}

=== FILE: jsobject.dfy ===
/** Post records as the form sees them: plain JavaScript objects, that is, key/value
    lists in insertion order, whose values are the few kinds a post carries. */
module JsObject {
  import opened Base
  import opened Text

  /** A file chosen in a browser file input: its name, its MIME type (`file.type`) and
      an identity standing for the bytes. */
  datatype File = File(name: string, mimeType: string, id: nat)

  /** What a post field holds. `Undefined` is what reading an absent key yields;
      `featured` starts as the string "false" and becomes a `Flag` once toggled. */
  datatype Value =
    | Undefined
    | Text(s: string)
    | Flag(b: bool)
    | Picture(file: File)
    | List(items: seq<string>)

  datatype Entry = Entry(key: string, value: Value)

  /** An object: its entries in insertion order. */
  type Record = seq<Entry>

  function Keys(r: Record): (ks: seq<string>)
    ensures |ks| == |r| && forall i :: 0 <= i < |r| ==> ks[i] == r[i].key
  {
    if r == [] then [] else [r[0].key] + Keys(r[1..])
  }

  /** No key appears twice, as in every JavaScript object. */
  predicate DistinctKeys(r: Record)
  {
    forall i, j :: 0 <= i < j < |r| ==> r[i].key != r[j].key
  }

  /** Property read `r[k]`: the value of the entry named `k`, `Undefined` when there is none. */
  function Get(r: Record, k: string): (v: Value)
    ensures k !in Keys(r) ==> v == Undefined
    ensures DistinctKeys(r) ==> forall i :: 0 <= i < |r| && r[i].key == k ==> v == r[i].value
  {
    if r == [] then Undefined
    else if r[0].key == k then r[0].value
    else Get(r[1..], k)
  }

  /** Object spread with one override, `{ ...r, [k]: v }`: an existing key keeps its
      position, a new key is appended at the end. */
  function Set(r: Record, k: string, v: Value): (r': Record)
    ensures k in Keys(r) ==> Keys(r') == Keys(r)
    ensures k !in Keys(r) ==> Keys(r') == Keys(r) + [k]
  {
    if r == [] then [Entry(k, v)]
    else if r[0].key == k then
      var r' := [Entry(k, v)] + r[1..];
      assert Keys(r') == [k] + Keys(r[1..]);
      r'
    else
      var tail := Set(r[1..], k, v);
      var r' := [r[0]] + tail;
      assert Keys(r') == [r[0].key] + Keys(tail);
      assert Keys(r) == [r[0].key] + Keys(r[1..]);
      r'
  }

  /** After the override, reading `k` gives the new value and every other key reads as
      before: the spread changes exactly one field. */
  lemma {:induction false} SetGet(r: Record, k: string, v: Value)
    ensures Get(Set(r, k, v), k) == v
    ensures forall k' :: k' != k ==> Get(Set(r, k, v), k') == Get(r, k')
  {
    if r != [] && r[0].key != k {
      SetGet(r[1..], k, v);
      assert Set(r, k, v)[1..] == Set(r[1..], k, v);
    }
  }

  /** The override leaves a different key's value and presence as they were. */
  lemma {:induction false} SetOther(r: Record, k: string, v: Value, k': string)
    requires k' != k
    ensures Get(Set(r, k, v), k') == Get(r, k')
    ensures k' in Keys(Set(r, k, v)) <==> k' in Keys(r)
  {
    if r != [] && r[0].key != k {
      SetOther(r[1..], k, v, k');
      assert Set(r, k, v)[1..] == Set(r[1..], k, v);
    }
  }

  /** The override keeps the keys distinct. */
  lemma SetDistinct(r: Record, k: string, v: Value)
    requires DistinctKeys(r)
    ensures DistinctKeys(Set(r, k, v))
  {
    var r' := Set(r, k, v);
    forall i, j | 0 <= i < j < |r'|
      ensures r'[i].key != r'[j].key
    {
      assert Keys(r')[i] == r'[i].key && Keys(r')[j] == r'[j].key;
    }
  }

  /** `String(v)`, as `FormData.append` and template literals convert a non-file value. */
  function ToStr(v: Value): string
  {
    match v
    case Undefined => "undefined"
    case Text(s) => s
    case Flag(b) => if b then "true" else "false"
    case Picture(_) => "[object File]"
    case List(items) => Join(items, ",")
  }

  /** JavaScript truthiness of a field value. */
  predicate Truthy(v: Value)
  {
    match v
    case Undefined => false
    case Text(s) => s != []
    case Flag(b) => b
    case Picture(_) => true
    case List(_) => true
  }

  /** One part of a multipart `FormData` body: a string, or a file. */
  datatype PartData = Chars(s: string) | Blob(file: File)
  datatype Part = Part(name: string, data: PartData)
  type FormData = seq<Part>

  /** The part `FormData.append(key, v)` stores: files are kept, everything else is
      converted with `String`. */
  function PartOf(v: Value): PartData
  {
    if v.Picture? then Blob(v.file) else Chars(ToStr(v))
  }

  /** `for (let key in r) formData.append(key, r[key])`: one part per key, in key order. */
  function ToFormData(r: Record): (fd: FormData)
    ensures |fd| == |r|
    ensures forall i :: 0 <= i < |r| ==> fd[i] == Part(r[i].key, PartOf(r[i].value))
  {
    if r == [] then [] else [Part(r[0].key, PartOf(r[0].value))] + ToFormData(r[1..])
  }

  /** `formData.get(k)`: the first value appended under `k`, if any. */
  function FormGet(fd: FormData, k: string): Option<PartData>
  {
    if fd == [] then None
    else if fd[0].name == k then Some(fd[0].data)
    else FormGet(fd[1..], k)
  }

  /** The part names of a form body, in order. */
  function Names(fd: FormData): (ns: seq<string>)
    ensures |ns| == |fd| && forall i :: 0 <= i < |fd| ==> ns[i] == fd[i].name
  {
    if fd == [] then [] else [fd[0].name] + Names(fd[1..])
  }

  /** The body built from an object has one part per key, named as the keys in order,
      and reading a name back gives the object's value converted as `append` does;
      a name the object lacks is absent from the body. */
  lemma {:induction false} FormGetOf(r: Record, k: string)
    ensures Names(ToFormData(r)) == Keys(r)
    ensures FormGet(ToFormData(r), k) == if k in Keys(r) then Some(PartOf(Get(r, k))) else None
  {
    if r != [] {
      FormGetOf(r[1..], k);
      var fd := ToFormData(r);
      assert fd[1..] == ToFormData(r[1..]);
      assert Keys(r)[1..] == Keys(r[1..]);
      assert Names(fd)[1..] == Names(fd[1..]);
      assert k in Keys(r) <==> k == r[0].key || k in Keys(r[1..]);
    }
  }
}

=== FILE: json.dfy ===
/** `JSON.stringify` applied to an array of strings (section 5 arrays and section 7
    strings of RFC 8259, in the compact form ECMAScript produces), and a reader for
    that form, which serves as its partner: reading what was written gives back the
    array. */
module Json {
  import opened Base
  import opened Text

  /** The lower-case hexadecimal digit for `n`. */
  function HexDigit(n: nat): (c: char)
    requires n < 16
    ensures ('0' <= c <= '9') || ('a' <= c <= 'f')
  {
    if n < 10 then ('0' as int + n) as char else ('a' as int + n - 10) as char
  }

  /** The value of a hexadecimal digit of either case. */
  function HexValue(c: char): (v: Option<nat>)
    ensures v.Some? ==> v.value < 16
  {
    if '0' <= c <= '9' then Some(c as int - '0' as int)
    else if 'a' <= c <= 'f' then Some(c as int - 'a' as int + 10)
    else if 'A' <= c <= 'F' then Some(c as int - 'A' as int + 10)
    else None
  }

  /** How one character is written inside a JSON string literal: the two-character
      escapes for quote, backslash and the five named controls, `\u00xx` with
      lower-case hex for the other control characters, and the character itself
      otherwise (ECMAScript's QuoteJSONString). */
  function EscapeChar(c: char): string
  {
    if c == '"' then "\\\""
    else if c == '\\' then "\\\\"
    else if c == '\U{8}' then "\\b"
    else if c == '\U{C}' then "\\f"
    else if c == '\n' then "\\n"
    else if c == '\r' then "\\r"
    else if c == '\t' then "\\t"
    else if c < ' ' then "\\u00" + [HexDigit(c as int / 16), HexDigit(c as int % 16)]
    else [c]
  }

  /** The body of a string literal: every character escaped in turn. */
  function Escape(s: string): string
  {
    if s == [] then [] else EscapeChar(s[0]) + Escape(s[1..])
  }

  /** `JSON.stringify(s)` for a string. */
  function Quote(s: string): string
  {
    "\"" + Escape(s) + "\""
  }

  function QuoteAll(ts: seq<string>): (qs: seq<string>)
    ensures |qs| == |ts| && forall i :: 0 <= i < |ts| ==> qs[i] == Quote(ts[i])
  {
    if ts == [] then [] else [Quote(ts[0])] + QuoteAll(ts[1..])
  }

  /** `JSON.stringify(ts)` for an array of strings: no white space between tokens. */
  function StringifyStrings(ts: seq<string>): string
  {
    "[" + Join(QuoteAll(ts), ",") + "]"
  }

  /** Reads the escape sequence that follows a backslash: the character it denotes and
      the rest of the input. A `\u` escape naming a surrogate is refused. */
  function ReadEscape(s: string): (r: Option<(char, string)>)
    ensures r.Some? ==> |r.value.1| < |s|
  {
    if s == [] then None
    else if s[0] == '"' then Some(('"', s[1..]))
    else if s[0] == '\\' then Some(('\\', s[1..]))
    else if s[0] == '/' then Some(('/', s[1..]))
    else if s[0] == 'b' then Some(('\U{8}', s[1..]))
    else if s[0] == 'f' then Some(('\U{C}', s[1..]))
    else if s[0] == 'n' then Some(('\n', s[1..]))
    else if s[0] == 'r' then Some(('\r', s[1..]))
    else if s[0] == 't' then Some(('\t', s[1..]))
    else if s[0] == 'u' && |s| >= 5 then
      match (HexValue(s[1]), HexValue(s[2]), HexValue(s[3]), HexValue(s[4]))
      case (Some(a), Some(b), Some(c), Some(d)) =>
        var code := a * 4096 + b * 256 + c * 16 + d;
        if 0xD800 <= code < 0xE000 then None else Some((code as char, s[5..]))
      case _ => None
    else None
  }

  /** Reads a string literal whose opening quote has been consumed: its contents and
      the input after the closing quote. Unescaped control characters are refused. */
  function ReadString(s: string): (r: Option<(string, string)>)
    ensures r.Some? ==> |r.value.1| < |s|
    decreases |s|
  {
    if s == [] then None
    else if s[0] == '"' then Some(([], s[1..]))
    else if s[0] < ' ' then None
    else if s[0] == '\\' then
      match ReadEscape(s[1..])
      case None => None
      case Some((c, rest)) =>
        match ReadString(rest)
        case None => None
        case Some((t, after)) => Some(([c] + t, after))
    else
      match ReadString(s[1..])
      case None => None
      case Some((t, after)) => Some(([s[0]] + t, after))
  }

  /** Reads one or more comma-separated string literals closed by `]` at the very end. */
  function ReadElements(s: string): Option<seq<string>>
    decreases |s|
  {
    if s == [] || s[0] != '"' then None
    else
      match ReadString(s[1..])
      case None => None
      case Some((t, rest)) =>
        if rest == "]" then Some([t])
        else if rest != [] && rest[0] == ',' then
          match ReadElements(rest[1..])
          case None => None
          case Some(ts) => Some([t] + ts)
        else None
  }

  /** Reads a compact JSON array of strings that makes up the whole input. */
  function ReadStrings(s: string): Option<seq<string>>
  {
    if s == "[]" then Some([])
    else if s != [] && s[0] == '[' then ReadElements(s[1..])
    else None
  }

  lemma HexRoundTrip(n: nat)
    requires n < 16
    ensures HexValue(HexDigit(n)) == Some(n)
  {
  }

  /** One escaped character is read back as that character. */
  lemma ReadEscapedChar(c: char, y: string)
    ensures ReadString(EscapeChar(c) + y) ==
      match ReadString(y)
      case None => None
      case Some((t, after)) => Some(([c] + t, after))
  {
    var e := EscapeChar(c);
    if c < ' ' && c != '\U{8}' && c != '\U{C}' && c != '\n' && c != '\r' && c != '\t' {
      var hi, lo := c as int / 16, c as int % 16;
      HexRoundTrip(hi);
      HexRoundTrip(lo);
      var s := e + y;
      assert s[1..] == ['u', '0', '0', HexDigit(hi), HexDigit(lo)] + y;
      assert ReadEscape(s[1..]) == Some((c, y));
    } else if c == '"' || c == '\\' || c == '\U{8}' || c == '\U{C}' || c == '\n' || c == '\r' || c == '\t' {
      assert (e + y)[1..] == [e[1]] + y;
    } else {
      assert (e + y)[1..] == y;
    }
  }

  /** A string literal body followed by its closing quote is read back exactly. */
  lemma {:induction false} ReadQuoted(x: string, rest: string)
    ensures ReadString(Escape(x) + "\"" + rest) == Some((x, rest))
  {
    if x == [] {
      assert Escape(x) + "\"" + rest == "\"" + rest;
      assert ("\"" + rest)[1..] == rest;
    } else {
      ReadQuoted(x[1..], rest);
      ReadEscapedChar(x[0], Escape(x[1..]) + "\"" + rest);
      assert Escape(x) + "\"" + rest == EscapeChar(x[0]) + (Escape(x[1..]) + "\"" + rest);
      assert [x[0]] + x[1..] == x;
    }
  }

  /** A literal closed by `]` is read as the last element. */
  lemma ReadLast(t: string)
    ensures ReadElements(Quote(t) + "]") == Some([t])
  {
    var s := Quote(t) + "]";
    ReadQuoted(t, "]");
    assert s[1..] == Escape(t) + "\"" + "]";
  }

  /** One element read from an opening quote, then a comma and the rest. */
  lemma ReadStep(body: string, t: string, tail: string, ts: seq<string>)
    requires ReadString(body) == Some((t, [','] + tail))
    requires ReadElements(tail) == Some(ts)
    ensures ReadElements(['"'] + body) == Some([t] + ts)
  {
    assert (['"'] + body)[1..] == body;
    assert ([','] + tail)[1..] == tail;
  }

  /** The text of a literal followed by a comma, regrouped around its opening quote. */
  lemma QuoteComma(t: string, tail: string)
    ensures Quote(t) + "," + tail == ['"'] + (Escape(t) + "\"" + ([','] + tail))
  {
  }

  /** A literal followed by a comma is read as one element, then the rest. */
  lemma ReadNext(t: string, tail: string, ts: seq<string>)
    requires ReadElements(tail) == Some(ts)
    ensures ReadElements(Quote(t) + "," + tail) == Some([t] + ts)
  {
    var body := Escape(t) + "\"" + ([','] + tail);
    QuoteComma(t, tail);
    ReadQuoted(t, [','] + tail);
    ReadStep(body, t, tail, ts);
  }

  /** The comma-join of two or more literals is the first, a comma, and the join of
      the others. */
  lemma JoinQuoted(ts: seq<string>)
    requires |ts| >= 2
    ensures Join(QuoteAll(ts), ",") == Quote(ts[0]) + "," + Join(QuoteAll(ts[1..]), ",")
  {
    var qs := QuoteAll(ts);
    assert qs[1..] == QuoteAll(ts[1..]);
  }

  /** The elements written by `StringifyStrings` are read back. */
  lemma {:induction false} ReadJoined(ts: seq<string>)
    requires |ts| >= 1
    ensures ReadElements(Join(QuoteAll(ts), ",") + "]") == Some(ts)
  {
    if |ts| == 1 {
      ReadLast(ts[0]);
      assert Join(QuoteAll(ts), ",") == Quote(ts[0]);
      assert [ts[0]] == ts;
    } else {
      var tail := Join(QuoteAll(ts[1..]), ",") + "]";
      ReadJoined(ts[1..]);
      JoinQuoted(ts);
      assert Join(QuoteAll(ts), ",") + "]" == Quote(ts[0]) + "," + tail;
      ReadNext(ts[0], tail, ts[1..]);
      assert [ts[0]] + ts[1..] == ts;
    }
  }

  /** Reading the JSON text of a string array gives the array back. */
  lemma StringifyRoundTrip(ts: seq<string>)
    ensures ReadStrings(StringifyStrings(ts)) == Some(ts)
  {
    if ts != [] {
      ReadJoined(ts);
      var s := StringifyStrings(ts);
      assert s[1..] == Join(QuoteAll(ts), ",") + "]";
      assert s != "[]" by {
        assert s[1] == '"';
      }
    }
  }
}

=== FILE: postcard.dfy ===
/** The post card on the home page: the strings it derives from a post (image source,
    meta excerpt, tag line, edit link), and the route the edit link leads to. */
module PostCard {
  import opened Base
  import opened Text
  import opened JsObject
  import Slug
  import Tags

  /** What the card shows that the model derives: the image source, the excerpt, the
      tag line and the edit link. The title and the creation date are shown as given. */
  datatype Card = Card(imageSrc: Value, excerpt: string, tagLine: string, editLink: string)

  /** The render: nothing for a missing post, a `TypeError` when a field lacks the
      method the card calls on it, else the card. */
  datatype Rendered = Nothing | Throws | Shown(card: Card)

  const Logo := "./logo.png"
  const ExcerptLength: nat := 80
  const Ellipsis := "..."
  const EditPrefix := "/update-post/"

  /** `thumbnail || "./logo.png"`: the card always has an image source, the post's own
      when it has one. */
  function ImageSrc(thumbnail: Value): (src: Value)
    ensures Truthy(src)
    ensures Truthy(thumbnail) ==> src == thumbnail
    ensures !Truthy(thumbnail) ==> src == Text(Logo)
  {
    if Truthy(thumbnail) then thumbnail else Text(Logo)
  }

  /** `meta.substring(0, 80) + "..."`. */
  function Excerpt(meta: string): (e: string)
    ensures |e| == Min(ExcerptLength, |meta|) + 3
  {
    meta[..Min(ExcerptLength, |meta|)] + Ellipsis
  }

  /** The excerpt is at most 83 characters: a prefix of the meta, the whole meta when it
      has at most 80 characters, followed by the ellipsis. */
  lemma ExcerptShape(meta: string)
    ensures |Excerpt(meta)| <= ExcerptLength + 3
    ensures Excerpt(meta)[..|Excerpt(meta)| - 3] <= meta
    ensures Excerpt(meta)[|Excerpt(meta)| - 3..] == Ellipsis
    ensures |meta| <= ExcerptLength ==> Excerpt(meta) == meta + Ellipsis
  {
    var k := Min(ExcerptLength, |meta|);
    assert Excerpt(meta)[..k] == meta[..k];
    assert Excerpt(meta)[k..] == Ellipsis;
  }

  /** `tags.join(", ")`. */
  function TagLine(tags: seq<string>): string
  {
    Join(tags, ", ")
  }

  /** The tag line is the flattened form the edit page puts in the form, so clean tags
      read back from it as the form would normalise them. */
  lemma TagLineReadsBack(tags: seq<string>)
    requires |tags| >= 1
    requires forall i :: 0 <= i < |tags| ==> Tags.IsCleanTag(tags[i])
    ensures Tags.Normalize(TagLine(tags)) == tags[..Min(Tags.MaxTags, |tags|)]
  {
    Tags.NormalizeJoined(tags);
  }

  /** `` `/update-post/${slug}` ``: the slug converted as a template literal converts it. */
  function EditLink(slug: Value): (link: string)
    ensures EditPrefix <= link
    ensures slug.Text? ==> link[|EditPrefix|..] == slug.s
  {
    EditPrefix + ToStr(slug)
  }

  /** Renders the card for `post`: the meta must be a string and the tags an array,
      as `substring` and `join` are called on them. */
  function Render(post: Option<Record>): (r: Rendered)
    ensures post.None? ==> r == Nothing
    ensures r.Shown? ==> post.Some? && Get(post.value, "meta").Text? && Get(post.value, "tags").List?
    ensures post.Some? && !Get(post.value, "meta").Text? ==> r == Throws
    ensures post.Some? && !Get(post.value, "tags").List? ==> r == Throws
    ensures post.Some? && Get(post.value, "meta").Text? && Get(post.value, "tags").List? ==> r.Shown?
    ensures r.Shown? ==> Truthy(r.card.imageSrc) && |r.card.excerpt| <= ExcerptLength + 3
  {
    match post
    case None => Nothing
    case Some(p) =>
      match (Get(p, "meta"), Get(p, "tags"))
      case (Text(meta), List(tags)) =>
        Shown(Card(ImageSrc(Get(p, "thumbnail")), Excerpt(meta), TagLine(tags), EditLink(Get(p, "slug"))))
      case _ => Throws
  }

  // ----- The route the edit link leads to -----

  /** The pages of the application's router. */
  datatype Route = Home | CreatePost | UpdatePostPage(slug: string) | NotFoundPage

  /** Matches a path against `/`, `/create-post`, `/update-post/:slug` and the catch-all:
      a dynamic segment is a non-empty run of characters other than `/`. */
  function Match(path: string): (r: Route)
    ensures r == Home <==> path == "/"
    ensures r == CreatePost <==> path == "/create-post"
    ensures r.UpdatePostPage? <==>
      EditPrefix <= path && |path| > |EditPrefix| && '/' !in path[|EditPrefix|..]
    ensures r.UpdatePostPage? ==> path == EditPrefix + r.slug
  {
    if path == "/" then Home
    else if path == "/create-post" then CreatePost
    else if EditPrefix <= path && |path| > |EditPrefix| && '/' !in path[|EditPrefix|..] then
      UpdatePostPage(path[|EditPrefix|..])
    else NotFoundPage
  }

  /** The path part of a link's `to`: the router splits off a search part at the first
      `?` and a hash part at the first `#`, and matches only what comes before. */
  function PathOf(to: string): (p: string)
    ensures p <= to && '?' !in p && '#' !in p
    ensures |p| < |to| ==> to[|p|] == '?' || to[|p|] == '#'
  {
    if to == [] || to[0] == '?' || to[0] == '#' then [] else [to[0]] + PathOf(to[1..])
  }

  /** The page a link's `to` leads to. */
  function Navigate(to: string): Route
  {
    Match(PathOf(to))
  }

  /** A `to` without `?` or `#` is all path. */
  lemma PathOfPlain(to: string)
    requires '?' !in to && '#' !in to
    ensures PathOf(to) == to
  {
  }

  /** Each character of the path is the character of `to` at the same place, and is
      neither `?` nor `#`. */
  lemma PathCharAt(to: string, i: int)
    ensures 0 <= i < |PathOf(to)| ==> PathOf(to)[i] == to[i] && to[i] != '?' && to[i] != '#'
  {
    var p := PathOf(to);
    if 0 <= i < |p| {
      assert p[i] in p;
    }
  }

  /** A `to` is cut at its first `?` or `#`. */
  lemma PathOfCut(x: string, c: char, y: string)
    requires '?' !in x && '#' !in x && (c == '?' || c == '#')
    ensures PathOf(x + [c] + y) == x
  {
    var p := PathOf(x + [c] + y);
    if |p| < |x| {
      assert false;
    } else if |p| > |x| {
      PathCharAt(x + [c] + y, |x|);
      assert false;
    }
  }

  /** An edit path matches the edit page for its segment, or the catch-all when the
      segment is empty. */
  lemma MatchEditPath(w: string)
    requires '/' !in w
    ensures Match(EditPrefix + w) == if w == [] then NotFoundPage else UpdatePostPage(w)
  {
    var path := EditPrefix + w;
    assert path[|EditPrefix|..] == w;
    assert path[1] == 'u';
  }

  /** The edit prefix holds neither `?` nor `#`. */
  lemma PrefixIsPath()
    ensures '?' !in EditPrefix && '#' !in EditPrefix
  {
  }

  /** The edit link of a non-empty slug without `/`, `?` or `#` routes to the edit page
      for that slug. */
  lemma EditLinkRoutes(s: string)
    requires s != [] && '/' !in s && '?' !in s && '#' !in s
    ensures Navigate(EditLink(Text(s))) == UpdatePostPage(s)
  {
    var path := EditPrefix + s;
    assert EditLink(Text(s)) == path;
    PrefixIsPath();
    PathOfPlain(path);
    MatchEditPath(s);
  }

  /** A slug holding `?` or `#` routes to the edit page for the part before it, or to the
      catch-all when that part is empty. */
  lemma EditLinkCut(w: string, c: char, rest: string)
    requires '/' !in w && '?' !in w && '#' !in w && (c == '?' || c == '#')
    ensures Navigate(EditLink(Text(w + [c] + rest))) == if w == [] then NotFoundPage else UpdatePostPage(w)
  {
    var path := EditPrefix + w;
    assert EditLink(Text(w + [c] + rest)) == path + [c] + rest;
    PrefixIsPath();
    PathOfCut(path, c, rest);
    MatchEditPath(w);
  }

  /** Every non-empty slug the form derives leads back to the edit page for it. */
  lemma SlugLinkRoutes(title: string)
    requires Slug.Slugify(title) != []
    ensures Navigate(EditLink(Text(Slug.Slugify(title)))) == UpdatePostPage(Slug.Slugify(title))
  {
    var s := Slug.Slugify(title);
    Slug.SlugShape(title);
    EditLinkRoutes(s);
  }

  /** An empty slug, as a title without letters gives, yields a link that no page but
      the catch-all matches. */
  lemma EmptySlugNotFound()
    ensures Navigate(EditLink(Text([]))) == NotFoundPage
  {
    var link := EditLink(Text([]));
    assert link == EditPrefix;
    PrefixIsPath();
    PathOfPlain(link);
    assert link[1] == 'u';
  }
}

=== FILE: postform.dfy ===
/** The post-authoring form: its state, one step function per user or async event, and
    what each step hands to the outside world (notifications, alerts, the clipboard,
    the submit callback, the upload request). A JavaScript `TypeError` that escapes a
    handler is the `Throw` effect and leaves the state as it was. */
module PostForm {
  import opened Base
  import opened Text
  import opened JsObject
  import Json
  import Slug
  import Tags

  /** `defaultPost`: every field an empty string, except `featured`, which is the
      string "false". */
  const DefaultPost: Record := [
    Entry("title", Text("")),
    Entry("thumbnail", Text("")),
    Entry("featured", Text("false")),
    Entry("content", Text("")),
    Entry("tags", Text("")),
    Entry("meta", Text(""))
  ]

  /** The first argument of `updateNotification`. */
  datatype Kind = Error | Warning | Success

  datatype Effect =
    | Notify(kind: Kind, message: string)
    | Alert(message: string)
    | Clipboard(text: string)
    | Submit(payload: FormData)
    | Upload(payload: FormData)
    | Throw

  /** The form's state. `thumbnailUrl` is the preview source, `imageUrlToCopy` the URL
      of the last uploaded body image, `draft` the `blogPost` slot of local storage. */
  datatype Form = Form(
    postInfo: Record,
    thumbnailUrl: Value,
    imageUrlToCopy: Value,
    imageUploading: bool,
    draft: Option<Record>)

  datatype Step = Step(form: Form, effects: seq<Effect>)

  /** The event target of an input change: its `name`, `value`, `checked` and `files`. */
  datatype Target = Target(name: string, value: string, checked: bool, files: seq<File>)

  const NotAnImage := "This is not an image!"
  const TooManyTags := "Only the first four tags will be selected!"
  const Copied := "Copied to Clipboard!"
  const ImageLinkOpen := "![Add image description]("

  /** The form as mounted: the default post, no preview, nothing to copy, no upload in
      flight, and whatever the draft slot already held. */
  function Mount(stored: Option<Record>): (f: Form)
    ensures f.postInfo == DefaultPost && f.draft == stored
    ensures f.thumbnailUrl == Text("") && f.imageUrlToCopy == Text("") && !f.imageUploading
  {
    Form(DefaultPost, Text(""), Text(""), false, stored)
  }

  // ----- Mount effect and its cleanup -----

  /** The effect run when `initialPost` arrives: a present post replaces the form's
      post and its thumbnail becomes the preview; an absent one changes nothing. */
  function Hydrate(f: Form, initialPost: Option<Record>): (g: Form)
    ensures initialPost.None? ==> g == f
    ensures initialPost.Some? ==>
      g.postInfo == initialPost.value && g.thumbnailUrl == Get(initialPost.value, "thumbnail")
    ensures g.imageUrlToCopy == f.imageUrlToCopy && g.imageUploading == f.imageUploading
    ensures g.draft == f.draft
  {
    match initialPost
    case None => f
    case Some(p) => f.(postInfo := p, thumbnailUrl := Get(p, "thumbnail"))
  }

  /** `resetForm`: the default post and an empty draft slot; the preview, the URL to
      copy and the upload flag are left alone. */
  function Reset(f: Form): (g: Form)
    ensures g.postInfo == DefaultPost && g.draft == None
    ensures g.thumbnailUrl == f.thumbnailUrl && g.imageUrlToCopy == f.imageUrlToCopy
    ensures g.imageUploading == f.imageUploading
  {
    f.(postInfo := DefaultPost, draft := None)
  }

  /** The effect's cleanup: resets the form when `resetAfterSubmit` is set. */
  function Cleanup(f: Form, resetAfterSubmit: bool): (g: Form)
    ensures resetAfterSubmit ==> g == Reset(f)
    ensures !resetAfterSubmit ==> g == f
  {
    if resetAfterSubmit then Reset(f) else f
  }

  /** A change of `initialPost` or `resetAfterSubmit`: the previous run's cleanup, then
      the effect with the new post. */
  function Rerun(f: Form, previousReset: bool, initialPost: Option<Record>): Form
  {
    Hydrate(Cleanup(f, previousReset), initialPost)
  }

  // ----- Field edits -----

  /** A picked thumbnail: no file is a `TypeError`, a file whose type does not mention
      "image" is refused with an alert, any other becomes the post's thumbnail and its
      object URL the preview. The draft slot is not written. */
  function PickThumbnail(f: Form, files: seq<File>, preview: string): (s: Step)
    ensures files == [] ==> s == Step(f, [Throw])
    ensures files != [] && !Contains(files[0].mimeType, "image") ==> s == Step(f, [Alert(NotAnImage)])
    ensures s.form.draft == f.draft
    ensures forall k :: k != "thumbnail" ==> Get(s.form.postInfo, k) == Get(f.postInfo, k)
  {
    if files == [] then Step(f, [Throw])
    else if !Contains(files[0].mimeType, "image") then Step(f, [Alert(NotAnImage)])
    else
      var p := Set(f.postInfo, "thumbnail", Picture(files[0]));
      SetGet(f.postInfo, "thumbnail", Picture(files[0]));
      Step(f.(postInfo := p, thumbnailUrl := Text(preview)), [])
  }

  /** The warning an edit of the tag field raises, judged on the tags held before the
      edit: `None` when those tags are not a string (`split` throws), a warning when
      they split into more than four pieces, nothing otherwise. Other fields raise none. */
  function TagWarning(p: Record, name: string): (w: Option<seq<Effect>>)
    ensures name != "tags" ==> w == Some([])
    ensures w.None? <==> name == "tags" && !Get(p, "tags").Text?
  {
    if name != "tags" then Some([])
    else match Get(p, "tags")
      case Text(tags) =>
        Some(if |Split(tags, ',')| > Tags.MaxTags then [Notify(Warning, TooManyTags)] else [])
      case _ => None
  }

  /** Whether the meta branch throws, judged on the meta held before the edit: reading
      `length` of `undefined` throws, and a string or array of length 150 or more takes
      the branch that calls the missing `value.subString`. A flag or a file has no
      `length`, and `undefined >= 150` is false. */
  predicate MetaEditThrows(meta: Value)
  {
    match meta
    case Undefined => true
    case Text(s) => |s| >= 150
    case List(items) => |items| >= 150
    case Flag(_) => false
    case Picture(_) => false
  }

  /** `handleChange`: the thumbnail and `featured` have their own branches; any other
      field takes the target's value as a string, after the tag warning and the meta
      branch, and the new post is written to the draft slot. */
  function Change(f: Form, t: Target, preview: string): (s: Step)
    ensures s.form.imageUrlToCopy == f.imageUrlToCopy && s.form.imageUploading == f.imageUploading
    ensures t.name != "thumbnail" ==> s.form.thumbnailUrl == f.thumbnailUrl
    ensures Throw in s.effects ==> s.form == f
    ensures s.form.draft == f.draft || s.form.draft == Some(s.form.postInfo)
    ensures forall k :: k != t.name ==> Get(s.form.postInfo, k) == Get(f.postInfo, k)
    ensures t.name == "featured" ==> s.effects == []
    ensures t.name == "tags" ==> (Throw in s.effects <==> !Get(f.postInfo, "tags").Text?)
    ensures t.name == "meta" ==> (Throw in s.effects <==> MetaEditThrows(Get(f.postInfo, "meta")))
  {
    var p := f.postInfo;
    if t.name == "thumbnail" then PickThumbnail(f, t.files, preview)
    else if t.name == "featured" then
      var p' := Set(p, "featured", Flag(t.checked));
      SetGet(p, "featured", Flag(t.checked));
      Step(f.(postInfo := p', draft := Some(p')), [])
    else
      match TagWarning(p, t.name)
      case None => Step(f, [Throw])
      case Some(warning) =>
        if t.name == "meta" && MetaEditThrows(Get(p, "meta")) then Step(f, [Throw])
        else
          var p' := Set(p, t.name, Text(t.value));
          SetGet(p, t.name, Text(t.value));
          Step(f.(postInfo := p', draft := Some(p')), warning)
  }

  // ----- Body image upload -----

  /** The start of `handleImageUpload`: ignored while an upload is in flight; no file is
      a `TypeError`; a non-image file is refused with an error notification; any other
      sets the upload flag and sends the file as the `image` part. */
  function StartUpload(f: Form, files: seq<File>): (s: Step)
    ensures f.imageUploading ==> s == Step(f, [])
    ensures !f.imageUploading && files == [] ==> s == Step(f, [Throw])
    ensures s.form.imageUploading <==> f.imageUploading || (|s.effects| == 1 && s.effects[0].Upload?)
    ensures s.form.postInfo == f.postInfo && s.form.draft == f.draft
    ensures s.form.imageUrlToCopy == f.imageUrlToCopy && s.form.thumbnailUrl == f.thumbnailUrl
  {
    if f.imageUploading then Step(f, [])
    else if files == [] then Step(f, [Throw])
    else if !Contains(files[0].mimeType, "image") then Step(f, [Notify(Error, NotAnImage)])
    else Step(f.(imageUploading := true), [Upload([Part("image", Blob(files[0]))])])
  }

  /** The rest of `handleImageUpload`, once the request settles: the flag drops, an
      error is shown, a success makes the image URL available to copy. */
  function FinishUpload(f: Form, outcome: Result<string, string>): (s: Step)
    ensures !s.form.imageUploading
    ensures outcome.Err? ==> s.form.imageUrlToCopy == f.imageUrlToCopy && s.effects == [Notify(Error, outcome.error)]
    ensures outcome.Ok? ==> s.form.imageUrlToCopy == Text(outcome.value) && s.effects == []
    ensures s.form.postInfo == f.postInfo && s.form.draft == f.draft
    ensures s.form.thumbnailUrl == f.thumbnailUrl
  {
    var g := f.(imageUploading := false);
    match outcome
    case Err(e) => Step(g, [Notify(Error, e)])
    case Ok(url) => Step(g.(imageUrlToCopy := Text(url)), [])
  }

  /** `handleOnCopy`: the Markdown image tag for the uploaded URL goes to the clipboard,
      then a success notification. */
  function Copy(f: Form): (s: Step)
    ensures s.form == f
    ensures |s.effects| == 2 && s.effects[1] == Notify(Success, Copied)
    ensures s.effects[0] == Clipboard(ImageLinkOpen + ToStr(f.imageUrlToCopy) + ")")
  {
    Step(f, [Clipboard(ImageLinkOpen + ToStr(f.imageUrlToCopy) + ")"), Notify(Success, Copied)])
  }

  /** After a successful upload, copying puts the Markdown image tag for exactly the
      returned URL on the clipboard: the URL sits between the opening text and the
      closing parenthesis. */
  lemma CopyAfterUpload(f: Form, url: string)
    ensures var text := Copy(FinishUpload(f, Ok(url)).form).effects[0].text;
      && text == ImageLinkOpen + url + ")"
      && text[|ImageLinkOpen|..|text| - 1] == url
  {
    var text := ImageLinkOpen + url + ")";
    assert text[|ImageLinkOpen|..|text| - 1] == url;
  }

  // ----- Submit -----

  /** The fields `handleSubmit` requires, in the order it checks them, each with the
      message shown when it is blank. */
  const Required: seq<(string, string)> := [
    ("title", "Title is missing"),
    ("content", "Content is missing"),
    ("tags", "Tags are necessary"),
    ("meta", "Please add some meta descriptions!")
  ]

  /** One check, `if (!v.trim()) return updateNotification("error", message)`: a blank
      string stops with the message, a value without `trim` throws. */
  function Check(v: Value, message: string): Option<Effect>
  {
    match v
    case Text(s) => if Trim(s) == [] then Some(Notify(Error, message)) else None
    case _ => Some(Throw)
  }

  /** The outcome of the first check, in order, that stops the handler. */
  function FirstFailure(p: Record, rules: seq<(string, string)>): Option<Effect>
  {
    if rules == [] then None
    else
      var c := Check(Get(p, rules[0].0), rules[0].1);
      if c.Some? then c else FirstFailure(p, rules[1..])
  }

  /** A field that passes its check: a string that is not blank. */
  predicate Filled(v: Value)
  {
    v.Text? && !IsBlank(v.s)
  }

  /** Every required field passes: title, content, tags and meta are strings that are
      not blank. */
  predicate Ready(p: Record)
  {
    Filled(Get(p, "title")) && Filled(Get(p, "content")) && Filled(Get(p, "tags")) && Filled(Get(p, "meta"))
  }

  /** `finalPost`: the post with `tags` replaced by the JSON text of the normalised tags
      and `slug` set from the title. */
  function FinalPost(p: Record, title: string, tags: string): Record
  {
    var withTags := Set(p, "tags", Text(Json.StringifyStrings(Tags.Normalize(tags))));
    Set(withTags, "slug", Text(Slug.Slugify(title)))
  }

  /** `handleSubmit`: the first failing check is reported and nothing is submitted;
      when all pass, `onSubmit` receives the final post as a form body, once. The form
      itself is untouched either way, the draft slot included. */
  function SubmitForm(f: Form): (s: Step)
    ensures s.form == f
    ensures |s.effects| == 1
    ensures s.effects[0].Submit? <==> Ready(f.postInfo)
  {
    var p := f.postInfo;
    match FirstFailure(p, Required)
    case Some(e) =>
      FailureNotSubmit(p, Required);
      FailureNotReady(p);
      Step(f, [e])
    case None =>
      PassIsReady(p);
      Step(f, [Submit(ToFormData(FinalPost(p, Get(p, "title").s, Get(p, "tags").s)))])
  }

  // ----- Lemmas about checking -----

  lemma CheckFilled(v: Value, message: string)
    ensures Check(v, message).None? <==> Filled(v)
    ensures Check(v, message).Some? ==> !Check(v, message).value.Submit?
  {
    if v.Text? {
      TrimShape(v.s);
    }
  }

  lemma {:induction false} FailureNotSubmit(p: Record, rules: seq<(string, string)>)
    ensures FirstFailure(p, rules).Some? ==> !FirstFailure(p, rules).value.Submit?
  {
    if rules != [] {
      CheckFilled(Get(p, rules[0].0), rules[0].1);
      FailureNotSubmit(p, rules[1..]);
    }
  }

  /** No check fails exactly when every field of the rules is filled. */
  lemma {:induction false} FirstFailureNone(p: Record, rules: seq<(string, string)>)
    ensures FirstFailure(p, rules).None? <==> forall i :: 0 <= i < |rules| ==> Filled(Get(p, rules[i].0))
  {
    if rules != [] {
      CheckFilled(Get(p, rules[0].0), rules[0].1);
      FirstFailureNone(p, rules[1..]);
      assert forall i :: 1 <= i < |rules| ==> rules[i] == rules[1..][i - 1];
    }
  }

  /** The checks, run in order, all pass exactly when the post is ready. */
  lemma PassIffReady(p: Record)
    ensures FirstFailure(p, Required).None? <==> Ready(p)
  {
    FirstFailureNone(p, Required);
    RequiredOrder();
    if Ready(p) {
      // Each of the four rules names one of the fields `Ready` requires.
      forall i | 0 <= i < |Required|
        ensures Filled(Get(p, Required[i].0))
      {
        assert i == 0 || i == 1 || i == 2 || i == 3;
      }
    } else {
      assert !Filled(Get(p, Required[0].0)) || !Filled(Get(p, Required[1].0))
        || !Filled(Get(p, Required[2].0)) || !Filled(Get(p, Required[3].0));
    }
  }

  lemma PassIsReady(p: Record)
    requires FirstFailure(p, Required).None?
    ensures Ready(p)
    ensures Get(p, "title").Text? && Get(p, "tags").Text?
  {
    PassIffReady(p);
  }

  lemma FailureNotReady(p: Record)
    requires FirstFailure(p, Required).Some?
    ensures !Ready(p)
  {
    PassIffReady(p);
  }

  /** The checks run in order: when every field before the `i`-th is filled, the
      `i`-th decides, reporting its own message when blank and throwing when it is not
      a string. */
  lemma {:induction false} FirstFailureAt(p: Record, rules: seq<(string, string)>, i: nat)
    requires i < |rules|
    requires forall j :: 0 <= j < i ==> Filled(Get(p, rules[j].0))
    requires !Filled(Get(p, rules[i].0))
    ensures FirstFailure(p, rules) == Check(Get(p, rules[i].0), rules[i].1)
  {
    CheckFilled(Get(p, rules[0].0), rules[0].1);
    CheckFilled(Get(p, rules[i].0), rules[i].1);
    if i > 0 {
      FirstFailureAt(p, rules[1..], i - 1);
    }
  }

  /** Submitting with the `i`-th required field blank and all before it filled shows
      that field's message, and only that. */
  lemma SubmitReportsFirstBlank(f: Form, i: nat, s: string)
    requires i < |Required|
    requires forall j :: 0 <= j < i ==> Filled(Get(f.postInfo, Required[j].0))
    requires Get(f.postInfo, Required[i].0) == Text(s) && IsBlank(s)
    ensures SubmitForm(f) == Step(f, [Notify(Error, Required[i].1)])
  {
    FirstFailureAt(f.postInfo, Required, i);
    TrimShape(s);
  }

  /** With title and content filled and the tag field empty, submit asks for tags. */
  lemma SubmitBlankTags(f: Form)
    requires Filled(Get(f.postInfo, "title")) && Filled(Get(f.postInfo, "content"))
    requires Get(f.postInfo, "tags") == Text([])
    ensures SubmitForm(f) == Step(f, [Notify(Error, "Tags are necessary")])
  {
    TitleAndContentFirst(f.postInfo);
    RequiredOrder();
    SubmitReportsFirstBlank(f, 2, []);
  }

  lemma TitleAndContentFirst(p: Record)
    requires Filled(Get(p, "title")) && Filled(Get(p, "content"))
    ensures forall j :: 0 <= j < 2 ==> Filled(Get(p, Required[j].0))
  {
    RequiredOrder();
  }

  /** The required fields, in the order they are checked. */
  lemma RequiredOrder()
    ensures |Required| == 4
    ensures Required[0].0 == "title" && Required[1].0 == "content"
    ensures Required[2] == ("tags", "Tags are necessary") && Required[3].0 == "meta"
  {
  }

  /** Submitting with the `i`-th required field not a string, all before it filled,
      throws and submits nothing. */
  lemma SubmitThrowsOnNonString(f: Form, i: nat)
    requires i < |Required|
    requires forall j :: 0 <= j < i ==> Filled(Get(f.postInfo, Required[j].0))
    requires !Get(f.postInfo, Required[i].0).Text?
    ensures SubmitForm(f) == Step(f, [Throw])
  {
    FirstFailureAt(f.postInfo, Required, i);
  }

  // ----- Lemmas about the payload -----

  /** The parts of the final post are the post's keys in order, with `slug` appended
      unless the post already had one. */
  lemma PayloadNames(p: Record, title: string, tags: string)
    requires "tags" in Keys(p)
    ensures Names(ToFormData(FinalPost(p, title, tags))) == Keys(p) + (if "slug" in Keys(p) then [] else ["slug"])
  {
    var withTags := Set(p, "tags", Text(Json.StringifyStrings(Tags.Normalize(tags))));
    FormGetOf(FinalPost(p, title, tags), "slug");
    assert Keys(withTags) == Keys(p);
  }

  /** The `tags` part holds the JSON text of the normalised tags, which reads back as
      those tags, and the `slug` part holds the slug of the title. */
  lemma PayloadTagsAndSlug(p: Record, title: string, tags: string)
    ensures FormGet(ToFormData(FinalPost(p, title, tags)), "tags") == Some(Chars(Json.StringifyStrings(Tags.Normalize(tags))))
    ensures FormGet(ToFormData(FinalPost(p, title, tags)), "slug") == Some(Chars(Slug.Slugify(title)))
    ensures Json.ReadStrings(Json.StringifyStrings(Tags.Normalize(tags))) == Some(Tags.Normalize(tags))
  {
    var jsonTags := Text(Json.StringifyStrings(Tags.Normalize(tags)));
    var withTags := Set(p, "tags", jsonTags);
    var fp := FinalPost(p, title, tags);
    SetGet(p, "tags", jsonTags);
    SetGet(withTags, "slug", Text(Slug.Slugify(title)));
    assert Get(fp, "tags") == jsonTags;
    FormGetOf(fp, "tags");
    FormGetOf(fp, "slug");
    Json.StringifyRoundTrip(Tags.Normalize(tags));
  }

  /** Every part other than `tags` and `slug` carries the post's own value. */
  lemma PayloadOthers(p: Record, title: string, tags: string, k: string)
    requires k != "tags" && k != "slug"
    ensures FormGet(ToFormData(FinalPost(p, title, tags)), k) == FormGet(ToFormData(p), k)
  {
    var withTags := Set(p, "tags", Text(Json.StringifyStrings(Tags.Normalize(tags))));
    var fp := FinalPost(p, title, tags);
    SetOther(p, "tags", Text(Json.StringifyStrings(Tags.Normalize(tags))), k);
    SetOther(withTags, "slug", Text(Slug.Slugify(title)), k);
    FormGetOf(fp, k);
    FormGetOf(p, k);
  }

  /** The body `onSubmit` receives, for a ready post: its parts are the post's keys in
      order with `slug` appended unless the post already had one; `tags` holds the JSON
      text of the normalised tags, which reads back as those tags; `slug` holds the
      slug of the title; every other key carries the post's own value. */
  lemma SubmitPayload(f: Form, title: string, tags: string)
    requires Ready(f.postInfo)
    requires Get(f.postInfo, "title") == Text(title) && Get(f.postInfo, "tags") == Text(tags)
    ensures SubmitForm(f).effects == [Submit(ToFormData(FinalPost(f.postInfo, title, tags)))]
    ensures var fd := ToFormData(FinalPost(f.postInfo, title, tags));
      && Names(fd) == Keys(f.postInfo) + (if "slug" in Keys(f.postInfo) then [] else ["slug"])
      && FormGet(fd, "tags") == Some(Chars(Json.StringifyStrings(Tags.Normalize(tags))))
      && Json.ReadStrings(Json.StringifyStrings(Tags.Normalize(tags))) == Some(Tags.Normalize(tags))
      && FormGet(fd, "slug") == Some(Chars(Slug.Slugify(title)))
      && forall k :: k != "tags" && k != "slug" ==> FormGet(fd, k) == FormGet(ToFormData(f.postInfo), k)
  {
    var p := f.postInfo;
    PassIffReady(p);
    PayloadNames(p, title, tags);
    PayloadTagsAndSlug(p, title, tags);
    forall k | k != "tags" && k != "slug"
      ensures FormGet(ToFormData(FinalPost(p, title, tags)), k) == FormGet(ToFormData(p), k)
    {
      PayloadOthers(p, title, tags, k);
    }
  }

  /** A title without ASCII letters, such as "2024", passes the title check and is
      submitted with an empty slug: nothing rejects it. */
  lemma DigitsOnlyTitleSubmitted(f: Form, title: string, tags: string)
    requires title == "2024"
    requires Ready(f.postInfo)
    requires Get(f.postInfo, "title") == Text(title) && Get(f.postInfo, "tags") == Text(tags)
    ensures SubmitForm(f).effects[0].Submit?
    ensures FormGet(SubmitForm(f).effects[0].payload, "slug") == Some(Chars([]))
  {
    SubmitPayload(f, title, tags);
    Slug.DigitsOnlyTitle(title);
  }

  // ----- Lemmas about edits, uploads and reset -----

  /** Editing a text field (any name but `thumbnail` and `featured`) that does not
      throw sets that key to the typed string, leaves every other key as it was, and
      writes exactly the new post to the draft slot. */
  lemma EditChangesOnlyThatKey(f: Form, t: Target, preview: string)
    requires t.name != "thumbnail" && t.name != "featured"
    requires Throw !in Change(f, t, preview).effects
    ensures Get(Change(f, t, preview).form.postInfo, t.name) == Text(t.value)
    ensures forall k :: k != t.name ==> Get(Change(f, t, preview).form.postInfo, k) == Get(f.postInfo, k)
    ensures Change(f, t, preview).form.draft == Some(Change(f, t, preview).form.postInfo)
  {
    SetGet(f.postInfo, t.name, Text(t.value));
  }

  /** An edit of a field other than `tags` and `meta` never throws and raises no
      notification. */
  lemma PlainEditQuiet(f: Form, t: Target, preview: string)
    requires t.name != "thumbnail" && t.name != "featured" && t.name != "tags" && t.name != "meta"
    ensures Change(f, t, preview).effects == []
  {
  }

  /** A tag edit warns exactly when the tags held before the edit split into more than
      four pieces; the edit itself still goes through. */
  lemma TagEditWarns(f: Form, t: Target, preview: string, before: string)
    requires t.name == "tags" && Get(f.postInfo, "tags") == Text(before)
    ensures Change(f, t, preview).effects ==
      if Count(before, ',') >= Tags.MaxTags then [Notify(Warning, TooManyTags)] else []
    ensures Get(Change(f, t, preview).form.postInfo, "tags") == Text(t.value)
  {
    var w := if Count(before, ',') >= Tags.MaxTags then [Notify(Warning, TooManyTags)] else [];
    var p' := Set(f.postInfo, "tags", Text(t.value));
    assert Change(f, t, preview) == Step(f.(postInfo := p', draft := Some(p')), w) by {
      assert TagWarning(f.postInfo, "tags") == Some(w);
    }
    SetGet(f.postInfo, "tags", Text(t.value));
  }

  /** A meta edit throws, leaving the form as it was, once the meta held before the
      edit is a string of 150 characters or more. */
  lemma LongMetaThrows(f: Form, t: Target, preview: string, before: string)
    requires t.name == "meta" && Get(f.postInfo, "meta") == Text(before) && |before| >= 150
    ensures Change(f, t, preview) == Step(f, [Throw])
  {
  }

  /** A meta edit throws, leaving the form as it was, exactly when the meta held before
      the edit is `undefined` (its `length` cannot be read) or a string or array of
      length 150 or more; otherwise the typed value is stored, written to the draft
      slot, and nothing is raised. */
  lemma MetaEditOutcome(f: Form, t: Target, preview: string)
    requires t.name == "meta"
    ensures var m := Get(f.postInfo, "meta");
      Change(f, t, preview) ==
        if m.Undefined? || (m.Text? && |m.s| >= 150) || (m.List? && |m.items| >= 150) then Step(f, [Throw])
        else
          var p := Set(f.postInfo, "meta", Text(t.value));
          Step(f.(postInfo := p, draft := Some(p)), [])
  {
  }

  /** A thumbnail whose type does not mention "image" leaves the form as it was,
      draft slot included, and raises the alert. */
  lemma NonImageThumbnailRefused(f: Form, t: Target, preview: string)
    requires t.name == "thumbnail" && t.files != [] && !Contains(t.files[0].mimeType, "image")
    ensures Change(f, t, preview) == Step(f, [Alert(NotAnImage)])
  {
  }

  /** An accepted thumbnail becomes the post's `thumbnail` and the preview. */
  lemma ImageThumbnailTaken(f: Form, t: Target, preview: string)
    requires t.name == "thumbnail" && t.files != [] && Contains(t.files[0].mimeType, "image")
    ensures Get(Change(f, t, preview).form.postInfo, "thumbnail") == Picture(t.files[0])
    ensures Change(f, t, preview).form.thumbnailUrl == Text(preview)
    ensures Change(f, t, preview).effects == []
  {
    SetGet(f.postInfo, "thumbnail", Picture(t.files[0]));
  }

  /** Toggling `featured` stores the checkbox state as a boolean and writes the draft. */
  lemma FeaturedToggled(f: Form, t: Target, preview: string)
    requires t.name == "featured"
    ensures Get(Change(f, t, preview).form.postInfo, "featured") == Flag(t.checked)
    ensures Change(f, t, preview).form.draft == Some(Change(f, t, preview).form.postInfo)
    ensures Change(f, t, preview).effects == []
  {
    SetGet(f.postInfo, "featured", Flag(t.checked));
  }

  /** Uploads are single-flight: while one is in flight another start is ignored, and
      an accepted start is followed by exactly one request; the flag stays up until
      the outcome arrives and is down after it, a failure keeping the previous URL. */
  lemma UploadSingleFlight(f: Form, files: seq<File>, again: seq<File>, outcome: Result<string, string>)
    requires !f.imageUploading && files != [] && Contains(files[0].mimeType, "image")
    ensures var started := StartUpload(f, files);
      && started.effects == [Upload([Part("image", Blob(files[0]))])]
      && started.form.imageUploading
      && StartUpload(started.form, again) == Step(started.form, [])
      && !FinishUpload(started.form, outcome).form.imageUploading
      && (outcome.Err? ==> FinishUpload(started.form, outcome).form.imageUrlToCopy == f.imageUrlToCopy)
  {
  }

  /** A non-image file never starts an upload. */
  lemma NonImageUploadRefused(f: Form, files: seq<File>)
    requires !f.imageUploading && files != [] && !Contains(files[0].mimeType, "image")
    ensures StartUpload(f, files) == Step(f, [Notify(Error, NotAnImage)])
  {
  }

  /** A freshly mounted form has nothing to submit: the default title is empty. */
  lemma MountedSubmitRefused(stored: Option<Record>)
    ensures SubmitForm(Mount(stored)).effects == [Notify(Error, "Title is missing")]
  {
    var g := Mount(stored);
    assert Get(DefaultPost, "title") == Text("");
    SubmitReportsFirstBlank(g, 0, "");
  }

  /** The edit page's post, handed to a freshly mounted form, fills it: the post and its
      thumbnail as the preview, with no upload in flight and the stored draft kept. */
  lemma MountThenHydrate(stored: Option<Record>, p: Record)
    ensures Hydrate(Mount(stored), Some(p)) ==
      Form(p, Get(p, "thumbnail"), Text(""), false, stored)
  {
  }

  // ----- Keys stay distinct -----

  /** The default post names each field once. */
  lemma DefaultPostDistinct()
    ensures DistinctKeys(DefaultPost)
  {
    forall i, j | 0 <= i < j < |DefaultPost|
      ensures DefaultPost[i].key != DefaultPost[j].key
    {
      // The keys differ in length, except `tags` and `meta`, which differ in their
      // first letter.
      assert DefaultPost[4].key[0] != DefaultPost[5].key[0];
    }
  }

  /** Every edit keeps the post's keys distinct, as a JavaScript object's are, so `Get`
      reads the one entry of each key. */
  lemma ChangeKeepsKeysDistinct(f: Form, t: Target, preview: string)
    requires DistinctKeys(f.postInfo)
    ensures DistinctKeys(Change(f, t, preview).form.postInfo)
  {
    var p := f.postInfo;
    if t.name == "thumbnail" {
      if t.files != [] {
        SetDistinct(p, "thumbnail", Picture(t.files[0]));
      }
    } else if t.name == "featured" {
      SetDistinct(p, "featured", Flag(t.checked));
    } else {
      SetDistinct(p, t.name, Text(t.value));
    }
  }

  /** The upload steps keep the post's keys distinct as well. */
  lemma UploadKeepsKeysDistinct(f: Form, files: seq<File>, outcome: Result<string, string>)
    requires DistinctKeys(f.postInfo)
    ensures DistinctKeys(StartUpload(f, files).form.postInfo)
    ensures DistinctKeys(FinishUpload(f, outcome).form.postInfo)
  {
  }

  /** Reset restores a post whose keys are distinct, whatever the form held. */
  lemma ResetKeysDistinct(f: Form)
    ensures DistinctKeys(Reset(f).postInfo)
  {
    DefaultPostDistinct();
  }

  /** Resetting twice is resetting once, and a reset form fails the title check. */
  lemma ResetThenSubmit(f: Form)
    ensures Reset(Reset(f)) == Reset(f)
    ensures SubmitForm(Reset(f)) == Step(Reset(f), [Notify(Error, "Title is missing")])
  {
    var g := Reset(f);
    assert Get(DefaultPost, "title") == Text("");
    SubmitReportsFirstBlank(g, 0, "");
  }

  /** The edit page passes `resetAfterSubmit`: each new post it hands over first clears
      the draft slot, then fills the form. */
  lemma RerunWithReset(f: Form, p: Record)
    ensures Rerun(f, true, Some(p)).postInfo == p
    ensures Rerun(f, true, Some(p)).draft == None
    ensures Rerun(f, true, Some(p)).thumbnailUrl == Get(p, "thumbnail")
  {
  }
}

=== FILE: searchform.dfy ===
/** The search box in the header: it holds the typed query, searches on submit unless
    the query is blank, and clears the results on reset or Escape. */
module SearchForm {
  import opened Text

  datatype Search = Search(query: string)

  /** Calls into the search provider. */
  datatype Effect = HandleSearch(query: string) | ResetSearch

  datatype Step = Step(search: Search, effects: seq<Effect>)

  const Escape := "Escape"

  /** The `onChange` handler: the query becomes the input's value. */
  function Type(st: Search, value: string): (s: Step)
    ensures s.search.query == value && s.effects == []
  {
    Step(Search(value), [])
  }

  /** `handleSubmit`: a blank query (empty or only white space) does nothing; any other
      is handed to the search verbatim, untrimmed. */
  function SubmitQuery(st: Search): (s: Step)
    ensures s.search == st
    ensures IsBlank(st.query) ==> s.effects == []
    ensures !IsBlank(st.query) ==> s.effects == [HandleSearch(st.query)]
  {
    TrimShape(st.query);
    if Trim(st.query) == [] then Step(st, []) else Step(st, [HandleSearch(st.query)])
  }

  /** `handleReset`: the results are cleared and the query emptied. */
  function ResetQuery(st: Search): (s: Step)
    ensures s.search.query == [] && s.effects == [ResetSearch]
  {
    Step(Search([]), [ResetSearch])
  }

  /** `handleKeyDown`: Escape clears the results (the handler calls `resetSearch` twice)
      and keeps the query; any other key does nothing. */
  function KeyDown(st: Search, key: string): (s: Step)
    ensures s.search == st
    ensures key == Escape ==> s.effects == [ResetSearch, ResetSearch]
    ensures key != Escape ==> s.effects == []
  {
    if key == Escape then Step(st, [ResetSearch, ResetSearch]) else Step(st, [])
  }

  /** `searchResult.length ? <button …/> : null`: the clear button shows exactly when
      there are results. */
  function ShowsClearButton<T>(searchResult: seq<T>): (shown: bool)
    ensures shown <==> searchResult != []
  {
    |searchResult| != 0
  }

  datatype Event = Typed(value: string) | Submitted | ResetClicked | KeyPressed(key: string)

  function Apply(st: Search, e: Event): Step
  {
    match e
    case Typed(v) => Type(st, v)
    case Submitted => SubmitQuery(st)
    case ResetClicked => ResetQuery(st)
    case KeyPressed(k) => KeyDown(st, k)
  }

  /** The final query and every call made, in order, over a run of events. */
  function Run(st: Search, events: seq<Event>): Step
    decreases |events|
  {
    if events == [] then Step(st, [])
    else
      var first := Apply(st, events[0]);
      var rest := Run(first.search, events[1..]);
      Step(rest.search, first.effects + rest.effects)
  }

  /** Over any run of events, every search that reaches the provider is for a query
      that is not blank. */
  lemma {:induction false} NoBlankSearch(st: Search, events: seq<Event>)
    ensures forall i :: 0 <= i < |Run(st, events).effects| && Run(st, events).effects[i].HandleSearch? ==>
      !IsBlank(Run(st, events).effects[i].query)
    decreases |events|
  {
    if events != [] {
      var first := Apply(st, events[0]);
      NoBlankSearch(first.search, events[1..]);
      var rest := Run(first.search, events[1..]);
      var all := Run(st, events).effects;
      assert all == first.effects + rest.effects;
      forall i | 0 <= i < |all| && all[i].HandleSearch?
        ensures !IsBlank(all[i].query)
      {
        if i >= |first.effects| {
          assert all[i] == rest.effects[i - |first.effects|];
        }
      }
    }
  }

  /** Submitting right after typing searches for exactly what was typed, unless it is
      blank. */
  lemma TypeThenSubmit(st: Search, value: string)
    ensures Run(st, [Typed(value), Submitted]).effects == if IsBlank(value) then [] else [HandleSearch(value)]
  {
    var events := [Typed(value), Submitted];
    var typed := Search(value);
    assert events[1..] == [Submitted];
    assert Run(typed, []) == Step(typed, []);
    assert Run(typed, [Submitted]).effects == SubmitQuery(typed).effects by {
      assert [Submitted][1..] == [];
    }
    assert Apply(st, events[0]) == Step(typed, []);
  }
}

=== FILE: slug.dfy ===
/** The slug the form derives from a post title at submit time: lower-case the title,
    turn every character outside `[a-zA-Z]` into a space, split on single spaces, drop
    the blank pieces and join the rest with `-`. */
module Slug {
  import opened Text

  predicate IsAsciiLetter(c: char)
  {
    ('a' <= c <= 'z') || ('A' <= c <= 'Z')
  }

  predicate IsLowerLetter(c: char)
  {
    'a' <= c <= 'z'
  }

  /** `toLowerCase` on one character, restricted to ASCII. */
  function Lower(c: char): char
  {
    if 'A' <= c <= 'Z' then (c as int + 32) as char else c
  }

  /** `toLowerCase` on a string, restricted to ASCII. */
  function LowerAll(s: string): (r: string)
    ensures |r| == |s| && forall i :: 0 <= i < |s| ==> r[i] == Lower(s[i])
  {
    if s == [] then [] else [Lower(s[0])] + LowerAll(s[1..])
  }

  /** `replace(/[^a-zA-Z]/g, " ")`. */
  function Scrub(s: string): (r: string)
    ensures |r| == |s| && forall i :: 0 <= i < |s| ==> r[i] == (if IsAsciiLetter(s[i]) then s[i] else ' ')
  {
    if s == [] then [] else [if IsAsciiLetter(s[0]) then s[0] else ' '] + Scrub(s[1..])
  }

  /** `filter((item) => item.trim())`: the pieces that are not blank, in order. A piece
      is kept exactly when its trimmed form is a non-empty, hence truthy, string, which
      by `TrimShape` means it is not blank. */
  function KeepNonBlank(ps: seq<string>): (r: seq<string>)
    ensures |r| <= |ps|
  {
    if ps == [] then []
    else if !IsBlank(ps[0]) then [ps[0]] + KeepNonBlank(ps[1..])
    else KeepNonBlank(ps[1..])
  }

  /** A non-empty run of lower-case ASCII letters. */
  predicate IsWord(w: string)
  {
    w != [] && forall j :: 0 <= j < |w| ==> IsLowerLetter(w[j])
  }

  /** The shape of a slug: lower-case letters and `-` only, no `-` at either end and
      never two in a row. */
  predicate IsSlug(s: string)
  {
    && (forall i :: 0 <= i < |s| ==> IsLowerLetter(s[i]) || s[i] == '-')
    && (s != [] ==> s[0] != '-' && s[|s| - 1] != '-')
    && (forall i :: 0 <= i < |s| - 1 ==> s[i] != '-' || s[i + 1] != '-')
  }

  /** The ASCII letters of `s`, in order. */
  function Letters(s: string): string
  {
    if s == [] then [] else (if IsAsciiLetter(s[0]) then [s[0]] else []) + Letters(s[1..])
  }

  function Concat(ws: seq<string>): string
  {
    if ws == [] then [] else ws[0] + Concat(ws[1..])
  }

  /** The title lower-cased, scrubbed and split on single spaces. */
  function Pieces(title: string): seq<string>
  {
    Split(Scrub(LowerAll(title)), ' ')
  }

  /** The runs of letters of the title, lower-cased: the words of the slug. */
  function Words(title: string): seq<string>
  {
    KeepNonBlank(Pieces(title))
  }

  /** The slug of a title. */
  function Slugify(title: string): string
  {
    Join(Words(title), "-")
  }

  /** Every slug has the slug shape: only `a`-`z` and `-`, no `-` at either end, no `--`. */
  lemma SlugShape(title: string)
    ensures IsSlug(Slugify(title))
  {
    PiecesAreWords(title);
    JoinWordsIsSlug(Words(title));
  }

  /** The slug is empty exactly when the title has no ASCII letter, which the title
      check does not look at. */
  lemma SlugEmptyIff(title: string)
    ensures Slugify(title) == [] <==> Letters(title) == []
  {
    PiecesAreWords(title);
    PiecesEmptyIff(title);
    JoinWordsIsSlug(Words(title));
  }

  /** Reading the slug without its dashes gives the title's letters, lower-cased and in
      order: nothing is invented, dropped or reordered. */
  lemma SlugLetters(title: string)
    ensures Letters(Slugify(title)) == LowerAll(Letters(title))
  {
    PiecesAreWords(title);
    PiecesConcatLetters(title);
    LettersOfJoin(Words(title));
  }

  /** Where the dashes go: a character outside `[a-zA-Z]` separates the words before it
      from the words after it, so the slug of the whole is the two slugs joined by one
      dash, or just the one that is not empty. */
  lemma SlugAtSeparator(a: string, c: char, b: string)
    requires !IsAsciiLetter(c)
    ensures Slugify(a + [c] + b) ==
      if Slugify(a) == [] then Slugify(b)
      else if Slugify(b) == [] then Slugify(a)
      else Slugify(a) + "-" + Slugify(b)
  {
    WordsAtSeparator(a, c, b);
    PiecesAreWords(a);
    PiecesAreWords(b);
    JoinWordsIsSlug(Words(a));
    JoinWordsIsSlug(Words(b));
    if Words(a) == [] {
      assert Words(a) + Words(b) == Words(b);
    } else if Words(b) == [] {
      assert Words(a) + Words(b) == Words(a);
    } else {
      JoinAppend(Words(a), Words(b), "-");
    }
  }

  /** The words around a separator are the words of each side. */
  lemma WordsAtSeparator(a: string, c: char, b: string)
    requires !IsAsciiLetter(c)
    ensures Words(a + [c] + b) == Words(a) + Words(b)
  {
    ScrubbedAtSeparator(a, c, b);
    SplitAtSeparator(Scrub(LowerAll(a)), ' ', Scrub(LowerAll(b)));
    KeepAppend(Pieces(a), Pieces(b));
  }

  /** A non-letter becomes a space between the scrubbed text of each side. */
  lemma ScrubbedAtSeparator(a: string, c: char, b: string)
    requires !IsAsciiLetter(c)
    ensures Scrub(LowerAll(a + [c] + b)) == Scrub(LowerAll(a)) + [' '] + Scrub(LowerAll(b))
  {
    var la, lc, lb := LowerAll(a), LowerAll([c]), LowerAll(b);
    LowerAppend(a + [c], b);
    LowerAppend(a, [c]);
    assert LowerAll(a + [c] + b) == la + lc + lb;
    ScrubAppend(la + lc, lb);
    ScrubAppend(la, lc);
    assert Scrub(lc) == [' '] by {
      assert lc == [Lower(c)];
    }
  }

  /** Dropping the blank pieces of two lists is dropping those of each. */
  lemma {:induction false} KeepAppend(ps: seq<string>, qs: seq<string>)
    ensures KeepNonBlank(ps + qs) == KeepNonBlank(ps) + KeepNonBlank(qs)
  {
    if ps == [] {
      assert ps + qs == qs;
    } else {
      var rest := KeepNonBlank(ps[1..] + qs);
      assert KeepNonBlank(ps + qs) == if IsBlank(ps[0]) then rest else [ps[0]] + rest by {
        assert (ps + qs)[0] == ps[0];
        assert (ps + qs)[1..] == ps[1..] + qs;
      }
      KeepAppend(ps[1..], qs);
    }
  }

  /** A run of ASCII letters with no separator is one word: its slug is the run
      lower-cased, whatever its case pattern. With `SlugAtSeparator` this fixes the slug
      of every title. */
  lemma SlugOfLetters(w: string)
    requires w != [] && forall i :: 0 <= i < |w| ==> IsAsciiLetter(w[i])
    ensures Slugify(w) == LowerAll(w)
  {
    var lw := LowerAll(w);
    assert IsWord(lw) by {
      forall j | 0 <= j < |lw|
        ensures IsLowerLetter(lw[j])
      {
        assert IsAsciiLetter(w[j]);
      }
    }
    ScrubWord(lw);
    SplitJoin([lw], ' ');
    assert Join([lw], " ") == lw;
    KeepAllWords([lw]);
    assert Join([lw], "-") == lw;
  }

  // ----- Lemmas about the pipeline -----

  lemma PiecesAreWords(t: string)
    ensures forall i :: 0 <= i < |KeepNonBlank(Pieces(t))| ==> IsWord(KeepNonBlank(Pieces(t))[i])
  {
    ScrubbedShape(t);
    PiecesAreLower(Scrub(LowerAll(t)));
    KeptWords(Pieces(t));
  }

  lemma PiecesEmptyIff(t: string)
    ensures KeepNonBlank(Pieces(t)) == [] <==> Letters(t) == []
  {
    var s := Scrub(LowerAll(t));
    ScrubbedShape(t);
    LettersOfScrubbed(t);
    if Letters(t) == [] {
      NoLettersScrubbed(s);
      NoLettersAllBlank(s);
      KeepNoneOfEmpty(Pieces(t));
    } else {
      LettersNonEmpty(s);
      SomePieceNonEmpty(s);
    }
  }

  lemma PiecesConcatLetters(t: string)
    ensures Concat(KeepNonBlank(Pieces(t))) == LowerAll(Letters(t))
  {
    var s := Scrub(LowerAll(t));
    ScrubbedShape(t);
    PiecesAreLower(s);
    LettersOfScrubbed(t);
    PiecesConcat(s);
    KeptConcat(Pieces(t));
  }

  /** A string of spaces and letters without letters is all spaces. */
  lemma {:induction false} NoLettersScrubbed(s: string)
    requires forall i :: 0 <= i < |s| ==> s[i] == ' ' || IsLowerLetter(s[i])
    requires Letters(s) == []
    ensures forall i :: 0 <= i < |s| ==> s[i] == ' '
  {
    if s != [] {
      NoLettersScrubbed(s[1..]);
    }
  }

  /** A string with letters has a letter somewhere. */
  lemma {:induction false} LettersNonEmpty(s: string)
    requires forall i :: 0 <= i < |s| ==> s[i] == ' ' || IsLowerLetter(s[i])
    requires Letters(s) != []
    ensures exists i :: 0 <= i < |s| && IsLowerLetter(s[i])
  {
    if !IsLowerLetter(s[0]) {
      LettersNonEmpty(s[1..]);
      var i :| 0 <= i < |s| - 1 && IsLowerLetter(s[1..][i]);
      assert IsLowerLetter(s[i + 1]);
    }
  }

  /** After lower-casing and scrubbing, only spaces and lower-case letters remain. */
  lemma ScrubbedShape(t: string)
    ensures forall i :: 0 <= i < |t| ==>
      Scrub(LowerAll(t))[i] == ' ' || IsLowerLetter(Scrub(LowerAll(t))[i])
  {
  }

  /** Splitting a string of spaces and lower-case letters on spaces gives lower-case pieces. */
  lemma {:induction false} PiecesAreLower(s: string)
    requires forall i :: 0 <= i < |s| ==> s[i] == ' ' || IsLowerLetter(s[i])
    ensures forall i, j :: 0 <= i < |Split(s, ' ')| && 0 <= j < |Split(s, ' ')[i]| ==>
      IsLowerLetter(Split(s, ' ')[i][j])
  {
    if s != [] {
      PiecesAreLower(s[1..]);
    }
  }

  /** Of lower-case pieces, exactly the non-empty ones are kept, and they are words. */
  lemma {:induction false} KeptWords(ps: seq<string>)
    requires forall i, j :: 0 <= i < |ps| && 0 <= j < |ps[i]| ==> IsLowerLetter(ps[i][j])
    ensures forall i :: 0 <= i < |KeepNonBlank(ps)| ==> IsWord(KeepNonBlank(ps)[i])
  {
    if ps != [] {
      KeptWords(ps[1..]);
      var rest := KeepNonBlank(ps[1..]);
      if !IsBlank(ps[0]) {
        assert KeepNonBlank(ps) == [ps[0]] + rest;
        assert ps[0] != [];
      } else {
        assert KeepNonBlank(ps) == rest;
      }
    }
  }

  /** A string made only of the separator splits into empty pieces. */
  lemma {:induction false} NoLettersAllBlank(s: string)
    requires forall i :: 0 <= i < |s| ==> s[i] == ' '
    ensures forall i :: 0 <= i < |Split(s, ' ')| ==> Split(s, ' ')[i] == []
  {
    if s != [] {
      NoLettersAllBlank(s[1..]);
    }
  }

  lemma {:induction false} KeepNoneOfEmpty(ps: seq<string>)
    requires forall i :: 0 <= i < |ps| ==> ps[i] == []
    ensures KeepNonBlank(ps) == []
  {
    if ps != [] {
      KeepNoneOfEmpty(ps[1..]);
    }
  }

  /** A letter in the scrubbed title lies in some non-empty piece, which is kept. */
  lemma {:induction false} SomePieceNonEmpty(s: string)
    requires forall i :: 0 <= i < |s| ==> s[i] == ' ' || IsLowerLetter(s[i])
    requires exists i :: 0 <= i < |s| && IsLowerLetter(s[i])
    ensures KeepNonBlank(Split(s, ' ')) != []
  {
    var ps := Split(s, ' ');
    if IsLowerLetter(s[0]) {
      assert ps[0][0] == s[0];
      assert !IsBlank(ps[0]);
    } else {
      var i :| 0 <= i < |s| && IsLowerLetter(s[i]);
      assert IsLowerLetter(s[1..][i - 1]);
      SomePieceNonEmpty(s[1..]);
      assert ps == [[]] + Split(s[1..], ' ');
      assert ps[1..] == Split(s[1..], ' ');
    }
  }

  lemma {:induction false} LettersAppend(a: string, b: string)
    ensures Letters(a + b) == Letters(a) + Letters(b)
  {
    if a != [] {
      LettersAppend(a[1..], b);
      assert (a + b)[0] == a[0];
      assert (a + b)[1..] == a[1..] + b;
    } else {
      assert a + b == b;
    }
  }

  /** The letters that survive scrubbing are the title's letters, lower-cased. */
  lemma {:induction false} LettersOfScrubbed(t: string)
    ensures Letters(Scrub(LowerAll(t))) == LowerAll(Letters(t))
  {
    if t != [] {
      LettersOfScrubbed(t[1..]);
      assert Scrub(LowerAll(t))[1..] == Scrub(LowerAll(t[1..]));
      if IsAsciiLetter(t[0]) {
        assert LowerAll(Letters(t)) == [Lower(t[0])] + LowerAll(Letters(t[1..]));
      }
    }
  }

  /** Concatenating the pieces of a space-split string gives its letters. */
  lemma {:induction false} PiecesConcat(s: string)
    requires forall i :: 0 <= i < |s| ==> s[i] == ' ' || IsLowerLetter(s[i])
    ensures Concat(Split(s, ' ')) == Letters(s)
  {
    if s != [] {
      PiecesConcat(s[1..]);
      var rest := Split(s[1..], ' ');
      if s[0] != ' ' {
        var ps := Split(s, ' ');
        assert ps == [[s[0]] + rest[0]] + rest[1..];
        assert ps[1..] == rest[1..];
        assert Concat(rest) == rest[0] + Concat(rest[1..]);
      } else {
        assert Split(s, ' ')[1..] == rest;
      }
    }
  }

  /** Dropping blank lower-case pieces (which are empty) leaves the concatenation alone. */
  lemma {:induction false} KeptConcat(ps: seq<string>)
    requires forall i, j :: 0 <= i < |ps| && 0 <= j < |ps[i]| ==> IsLowerLetter(ps[i][j])
    ensures Concat(KeepNonBlank(ps)) == Concat(ps)
  {
    if ps != [] {
      KeptConcat(ps[1..]);
    }
  }

  /** Words joined by `-` have the shape of a slug, and are empty only for no words. */
  lemma {:induction false} JoinWordsIsSlug(ws: seq<string>)
    requires forall i :: 0 <= i < |ws| ==> IsWord(ws[i])
    ensures IsSlug(Join(ws, "-"))
    ensures Join(ws, "-") == [] <==> ws == []
  {
    if |ws| >= 2 {
      JoinWordsIsSlug(ws[1..]);
      var w, rest := ws[0], Join(ws[1..], "-");
      var s := w + "-" + rest;
      assert forall i :: 0 <= i < |s| ==> IsLowerLetter(s[i]) || s[i] == '-' by {
        forall i | 0 <= i < |s|
          ensures IsLowerLetter(s[i]) || s[i] == '-'
        {
          if i > |w| {
            assert s[i] == rest[i - |w| - 1];
          }
        }
      }
      assert forall i :: 0 <= i < |s| - 1 ==> s[i] != '-' || s[i + 1] != '-' by {
        forall i | 0 <= i < |s| - 1
          ensures s[i] != '-' || s[i + 1] != '-'
        {
          if i > |w| {
            assert s[i] == rest[i - |w| - 1] && s[i + 1] == rest[i - |w|];
          }
        }
      }
      assert s[|s| - 1] == rest[|rest| - 1];
    } else if |ws| == 1 {
      assert Join(ws, "-") == ws[0];
    }
  }

  /** The letters of the joined words are the words run together. */
  lemma {:induction false} LettersOfJoin(ws: seq<string>)
    requires forall i :: 0 <= i < |ws| ==> IsWord(ws[i])
    ensures Letters(Join(ws, "-")) == Concat(ws)
  {
    if |ws| == 1 {
      WordLetters(ws[0]);
    } else if |ws| >= 2 {
      LettersOfJoin(ws[1..]);
      WordLetters(ws[0]);
      LettersAppend(ws[0] + "-", Join(ws[1..], "-"));
      LettersAppend(ws[0], "-");
    }
  }

  lemma {:induction false} WordLetters(w: string)
    requires forall j :: 0 <= j < |w| ==> IsLowerLetter(w[j])
    ensures Letters(w) == w
  {
    if w != [] {
      WordLetters(w[1..]);
      assert w == [w[0]] + w[1..];
    }
  }

  // ----- Idempotence -----

  lemma {:induction false} LowerKeeps(s: string)
    requires forall i :: 0 <= i < |s| ==> !('A' <= s[i] <= 'Z')
    ensures LowerAll(s) == s
  {
  }

  lemma {:induction false} ScrubJoin(ws: seq<string>)
    requires forall i :: 0 <= i < |ws| ==> IsWord(ws[i])
    ensures Scrub(Join(ws, "-")) == Join(ws, " ")
  {
    if |ws| == 1 {
      ScrubWord(ws[0]);
    } else if |ws| >= 2 {
      var w, rest := ws[0], Join(ws[1..], "-");
      ScrubJoin(ws[1..]);
      ScrubWord(w);
      assert Join(ws, "-") == w + "-" + rest;
      assert Join(ws, " ") == w + " " + Join(ws[1..], " ");
      ScrubAppend(w, "-");
      ScrubAppend(w + "-", rest);
    }
  }

  lemma LowerAppend(a: string, b: string)
    ensures LowerAll(a + b) == LowerAll(a) + LowerAll(b)
  {
  }

  lemma ScrubAppend(a: string, b: string)
    ensures Scrub(a + b) == Scrub(a) + Scrub(b)
  {
  }

  lemma ScrubWord(w: string)
    requires IsWord(w)
    ensures Scrub(w) == w
  {
  }

  lemma {:induction false} KeepAllWords(ws: seq<string>)
    requires forall i :: 0 <= i < |ws| ==> IsWord(ws[i])
    ensures KeepNonBlank(ws) == ws
  {
    if ws != [] {
      KeepAllWords(ws[1..]);
      assert !IsSpace(ws[0][0]);
      assert ws == [ws[0]] + ws[1..];
    }
  }

  /** Words joined by `-` are their own slug. */
  lemma SlugOfJoined(ws: seq<string>)
    requires |ws| >= 1
    requires forall i :: 0 <= i < |ws| ==> IsWord(ws[i])
    ensures Slugify(Join(ws, "-")) == Join(ws, "-")
  {
    var s := Join(ws, "-");
    JoinWordsIsSlug(ws);
    LowerKeeps(s);
    ScrubJoin(ws);
    SplitJoin(ws, ' ');
    KeepAllWords(ws);
    assert Words(s) == ws;
  }

  /** Slugging a slug returns it unchanged. */
  lemma SlugifyIdempotent(title: string)
    ensures Slugify(Slugify(title)) == Slugify(title)
  {
    var ws := Words(title);
    PiecesAreWords(title);
    if ws != [] {
      SlugOfJoined(ws);
    }
  }

  lemma SplitTwoWords(a: string, b: string, tail: string)
    requires ' ' !in a && ' ' !in b
    ensures Split(a + [' '] + ([' '] + (b + [' '] + tail)), ' ') == [a] + ([[]] + ([b] + Split(tail, ' ')))
  {
    var x := b + [' '] + tail;
    SplitAfter(b, ' ', tail);
    SplitLeadingSep(x, ' ');
    SplitAfter(a, ' ', [' '] + x);
  }

  lemma SplitLeadingSep(x: string, d: char)
    ensures Split([d] + x, d) == [[]] + Split(x, d)
  {
    assert ([d] + x)[1..] == x;
  }

  lemma KeepWord(w: string, rest: seq<string>)
    requires w != [] && !IsSpace(w[0])
    ensures KeepNonBlank([w] + rest) == [w] + KeepNonBlank(rest)
  {
    assert ([w] + rest)[1..] == rest;
  }

  lemma KeepEmpty(rest: seq<string>)
    ensures KeepNonBlank([[]] + rest) == KeepNonBlank(rest)
  {
    assert ([[]] + rest)[1..] == rest;
  }

  lemma ExampleLowered(title: string)
    requires title == "Hello, World! 2024"
    ensures LowerAll(title) == "hello, world! 2024"
  {
  }

  lemma ExampleScrubbed(lowered: string)
    requires lowered == "hello, world! 2024"
    ensures Scrub(lowered) == "hello" + [' ', ' '] + "world" + [' '] + "     "
  {
  }

  lemma Regroup(a: string, b: string, t: string)
    ensures a + [' ', ' '] + b + [' '] + t == a + [' '] + ([' '] + (b + [' '] + t))
  {
  }

  lemma KeepTwoWords(a: string, b: string, rest: seq<string>)
    requires IsWord(a) && IsWord(b)
    requires forall i :: 0 <= i < |rest| ==> rest[i] == []
    ensures KeepNonBlank([a] + ([[]] + ([b] + rest))) == [a, b]
  {
    KeepNoneOfEmpty(rest);
    KeepWord(b, rest);
    KeepEmpty([b] + rest);
    KeepWord(a, [[]] + ([b] + rest));
  }

  lemma ExamplePieces(title: string)
    requires title == "Hello, World! 2024"
    ensures Pieces(title) == ["hello"] + ([[]] + (["world"] + Split("     ", ' ')))
  {
    ExampleLowered(title);
    ExampleScrubbed(LowerAll(title));
    Regroup("hello", "world", "     ");
    SplitTwoWords("hello", "world", "     ");
  }

  lemma ExampleWords(title: string)
    requires title == "Hello, World! 2024"
    ensures Words(title) == ["hello", "world"]
  {
    ExamplePieces(title);
    NoLettersAllBlank("     ");
    KeepTwoWords("hello", "world", Split("     ", ' '));
  }

  /** Digits and punctuation vanish and runs of separators collapse to one `-`:
      "Hello, World! 2024" becomes "hello-world". */
  lemma SlugExample(title: string)
    requires title == "Hello, World! 2024"
    ensures Slugify(title) == "hello-world"
  {
    ExampleWords(title);
    SlugOfTwoWords(title, "hello", "world");
  }

  lemma SlugOfTwoWords(title: string, a: string, b: string)
    requires Words(title) == [a, b]
    ensures Slugify(title) == a + "-" + b
  {
    assert [a, b][1..] == [b];
    assert Join([b], "-") == b;
    assert Join([a, b], "-") == a + "-" + Join([b], "-");
  }

  /** A title without ASCII letters, such as "2024", gives the empty slug. */
  lemma DigitsOnlyTitle(title: string)
    requires title == "2024"
    ensures Slugify(title) == []
  {
    SlugEmptyIff(title);
    NoLetters(title);
  }

  lemma {:induction false} NoLetters(s: string)
    requires forall i :: 0 <= i < |s| ==> !IsAsciiLetter(s[i])
    ensures Letters(s) == []
  {
    if s != [] {
      NoLetters(s[1..]);
    }
  }
}

=== FILE: tags.dfy ===
/** Tag normalisation at submit time: split the tag field on `,`, trim every piece and
    keep the first four. Blank pieces are kept, not filtered. */
module Tags {
  import opened Base
  import opened Text

  /** At most this many tags reach the payload (`splice(0, 4)`). */
  const MaxTags: nat := 4

  /** `map((item) => item.trim())`. */
  function TrimAll(ps: seq<string>): (r: seq<string>)
    ensures |r| == |ps| && forall i :: 0 <= i < |ps| ==> r[i] == Trim(ps[i])
  {
    if ps == [] then [] else [Trim(ps[0])] + TrimAll(ps[1..])
  }

  /** `raw.split(",").map((item) => item.trim()).splice(0, 4)`: `splice` removes and
      returns the first four elements, or all of them when there are fewer. */
  function Normalize(raw: string): (tags: seq<string>)
    ensures |tags| == Min(MaxTags, Count(raw, ',') + 1)
    ensures forall i :: 0 <= i < |tags| ==> tags[i] == Trim(Split(raw, ',')[i])
  {
    var all := TrimAll(Split(raw, ','));
    all[..Min(MaxTags, |all|)]
  }

  /** A tag is trimmed and holds no comma. */
  predicate IsCleanTag(t: string)
  {
    ',' !in t && Trim(t) == t
  }

  /** Trimming twice changes nothing more. */
  lemma TrimIdempotent(s: string)
    ensures Trim(Trim(s)) == Trim(s)
  {
    TrimShape(s);
    TrimNoEdges(Trim(s));
  }

  /** Trimming only removes characters: a character of the result is one of the input's. */
  lemma TrimKeepsOut(s: string, c: char)
    requires c !in s
    ensures c !in Trim(s)
  {
    var t := TrimStart(s);
    TrimStartShape(s);
    TrimEndShape(t);
    assert c !in t;
  }

  /** Every normalised tag is clean, so a second normalisation of one tag keeps it. */
  lemma NormalizedClean(raw: string)
    ensures forall i :: 0 <= i < |Normalize(raw)| ==> IsCleanTag(Normalize(raw)[i])
  {
    var ps := Split(raw, ',');
    var tags := Normalize(raw);
    SplitPiecesFree(raw, ',');
    forall i | 0 <= i < |tags|
      ensures IsCleanTag(tags[i])
    {
      TrimKeepsOut(ps[i], ',');
      TrimIdempotent(ps[i]);
    }
  }

  /** More than four comma-separated pieces: exactly four tags survive. */
  lemma AtMostFour(raw: string)
    ensures |Normalize(raw)| <= MaxTags
    ensures Count(raw, ',') >= 3 ==> |Normalize(raw)| == MaxTags
  {
  }

  // ----- Round trip with the ", "-joined form of a tag array -----

  /** The pieces `", "`-joining puts between commas: every tag but the first gets a space. */
  function PadAll(ts: seq<string>): (r: seq<string>)
    ensures |r| == |ts| && forall i :: 0 <= i < |ts| ==> r[i] == " " + ts[i]
  {
    if ts == [] then [] else [" " + ts[0]] + PadAll(ts[1..])
  }

  /** A leading space moves into the first piece of a `,`-join. */
  lemma PadFirst(x: string, rest: seq<string>)
    ensures " " + Join([x] + rest, ",") == Join([" " + x] + rest, ",")
  {
    if rest == [] {
      assert Join([x] + rest, ",") == x;
      assert Join([" " + x] + rest, ",") == " " + x;
    } else {
      assert ([x] + rest)[1..] == rest;
      assert ([" " + x] + rest)[1..] == rest;
    }
  }

  /** Joining with `", "` is joining the padded pieces with `","`. */
  lemma {:induction false} JoinPadded(ts: seq<string>)
    requires |ts| >= 1
    ensures Join(ts, ", ") == Join([ts[0]] + PadAll(ts[1..]), ",")
  {
    if |ts| == 1 {
      assert [ts[0]] + PadAll(ts[1..]) == [ts[0]];
    } else {
      var tail := ts[1..];
      JoinPadded(tail);
      var inner := [tail[0]] + PadAll(tail[1..]);
      PadFirst(tail[0], PadAll(tail[1..]));
      assert tail[1..] == ts[2..];
      var whole := [ts[0]] + PadAll(tail);
      assert PadAll(tail) == [" " + tail[0]] + PadAll(tail[1..]);
      assert whole[1..] == PadAll(tail);
      assert Join(ts, ", ") == ts[0] + ", " + Join(tail, ", ");
      assert Join(whole, ",") == ts[0] + "," + Join(PadAll(tail), ",");
    }
  }

  /** Trimming padded clean tags gives the tags back. */
  lemma {:induction false} TrimPadAll(ts: seq<string>)
    requires forall i :: 0 <= i < |ts| ==> IsCleanTag(ts[i])
    ensures TrimAll(PadAll(ts)) == ts
  {
    if ts != [] {
      TrimPadAll(ts[1..]);
      PaddedTrim(ts[0]);
      assert PadAll(ts)[1..] == PadAll(ts[1..]);
    }
  }

  /** Trimming the pieces of a `", "`-join of clean tags gives the tags back. */
  lemma TrimPadded(ts: seq<string>)
    requires |ts| >= 1
    requires forall i :: 0 <= i < |ts| ==> IsCleanTag(ts[i])
    ensures TrimAll([ts[0]] + PadAll(ts[1..])) == ts
  {
    var ps := [ts[0]] + PadAll(ts[1..]);
    TrimPadAll(ts[1..]);
    assert IsCleanTag(ts[0]);
    assert ps[1..] == PadAll(ts[1..]);
    assert TrimAll(ps) == [Trim(ts[0])] + TrimAll(ps[1..]);
  }

  /** Clean tags joined with `", "` (as the edit page flattens a fetched post) are
      normalised back to the same tags, cut to the first four. */
  lemma NormalizeJoined(ts: seq<string>)
    requires |ts| >= 1
    requires forall i :: 0 <= i < |ts| ==> IsCleanTag(ts[i])
    ensures Normalize(Join(ts, ", ")) == ts[..Min(MaxTags, |ts|)]
  {
    var ps := [ts[0]] + PadAll(ts[1..]);
    JoinPadded(ts);
    assert forall i :: 0 <= i < |ps| ==> ',' !in ps[i] by {
      forall i | 0 <= i < |ps|
        ensures ',' !in ps[i]
      {
        if i > 0 {
          assert ps[i] == " " + ts[i];
        }
      }
    }
    SplitJoin(ps, ',');
    TrimPadded(ts);
  }

  // ----- Examples -----

  /** A separator-free first piece, then the separator. */
  lemma SplitCons(w: string, d: char, y: string)
    requires d !in w
    ensures Split(w + ([d] + y), d) == [w] + Split(y, d)
  {
    SplitAfter(w, d, y);
    assert w + ([d] + y) == w + [d] + y;
  }

  /** Five comma-free pieces with a comma between each split back into those pieces. */
  lemma SplitFive(a: string, b: string, c: string, d: string, e: string)
    requires ',' !in a && ',' !in b && ',' !in c && ',' !in d && ',' !in e
    ensures Split(a + ([','] + (b + ([','] + (c + ([','] + (d + ([','] + e))))))), ',') == [a, b, c, d, e]
  {
    SplitWhole(e, ',');
    SplitCons(d, ',', e);
    SplitCons(c, ',', d + ([','] + e));
    SplitCons(b, ',', c + ([','] + (d + ([','] + e))));
    SplitCons(a, ',', b + ([','] + (c + ([','] + (d + ([','] + e))))));
  }

  /** Normalising a field that splits into five pieces trims the first four. */
  lemma NormalizeFive(raw: string, a: string, b: string, c: string, d: string, e: string)
    requires Split(raw, ',') == [a, b, c, d, e]
    ensures Normalize(raw) == [Trim(a), Trim(b), Trim(c), Trim(d)]
  {
    var ps := [a, b, c, d, e];
    var all := TrimAll(ps);
    assert Normalize(raw) == all[..4];
    assert all[0] == Trim(a) && all[1] == Trim(b) && all[2] == Trim(c) && all[3] == Trim(d);
    assert all[..4] == [all[0], all[1], all[2], all[3]];
  }

  lemma SplitExampleFive(raw: string)
    requires raw == "a, b , c,d,e"
    ensures Split(raw, ',') == ["a", " b ", " c", "d", "e"]
  {
    assert raw == "a" + ([','] + (" b " + ([','] + (" c" + ([','] + ("d" + ([','] + "e")))))));
    SplitFive("a", " b ", " c", "d", "e");
  }

  /** Pieces are trimmed and the fifth is dropped: "a, b , c,d,e" gives a, b, c, d. */
  lemma ExampleFive(raw: string)
    requires raw == "a, b , c,d,e"
    ensures Normalize(raw) == ["a", "b", "c", "d"]
  {
    SplitExampleFive(raw);
    NormalizeFive(raw, "a", " b ", " c", "d", "e");
    TrimNoEdges("a");
    TrimNoEdges("b");
    TrimNoEdges("c");
    TrimNoEdges("d");
    PaddedBothTrim("b");
    PaddedTrim("c");
    assert " " + "b" + " " == " b ";
    assert " " + "c" == " c";
  }

  /** The empty piece between two commas is kept, not filtered: two clean tags with
      nothing between their commas normalise to those tags around an empty one. */
  lemma KeepsEmptyPiece(a: string, b: string)
    requires IsCleanTag(a) && IsCleanTag(b)
    ensures Normalize(a + [','] + ([','] + b)) == [a, [], b]
  {
    var raw := a + [','] + ([','] + b);
    SplitWhole(b, ',');
    SplitLeading(b);
    SplitAfter(a, ',', [','] + b);
    var ps := [a, [], b];
    assert Split(raw, ',') == ps;
    var all := TrimAll(ps);
    assert Normalize(raw) == all[..3];
    assert all[..3] == all;
    assert Trim([]) == [];
  }

  lemma SplitLeading(b: string)
    requires ',' !in b
    ensures Split([','] + b, ',') == [[], b]
  {
    SplitWhole(b, ',');
    assert ([','] + b)[1..] == b;
  }
}

=== FILE: text.dfy ===
/** The JavaScript string primitives the form relies on: `trim`, `split` on one
    character, `Array.prototype.join` and `includes`, over `seq<char>`. */
module Text {

  /** ECMAScript WhiteSpace and LineTerminator code points: exactly the characters
      `String.prototype.trim` removes from either end. */
  predicate IsSpace(c: char)
  {
    || c == '\t' || c == '\n' || c == '\U{B}' || c == '\U{C}' || c == '\r'
    || c == ' ' || c == '\U{A0}' || c == '\U{1680}'
    || ('\U{2000}' <= c <= '\U{200A}')
    || c == '\U{2028}' || c == '\U{2029}' || c == '\U{202F}' || c == '\U{205F}'
    || c == '\U{3000}' || c == '\U{FEFF}'
  }

  /** Every character is white space (the empty string included). */
  predicate IsBlank(s: string)
  {
    forall i :: 0 <= i < |s| ==> IsSpace(s[i])
  }

  /** Leading white space removed. */
  function TrimStart(s: string): (r: string)
    ensures |r| <= |s|
  {
    if |s| > 0 && IsSpace(s[0]) then TrimStart(s[1..]) else s
  }

  /** Trailing white space removed. */
  function TrimEnd(s: string): (r: string)
    ensures |r| <= |s|
  {
    if |s| > 0 && IsSpace(s[|s| - 1]) then TrimEnd(s[..|s| - 1]) else s
  }

  /** `String.prototype.trim`. */
  function Trim(s: string): (r: string)
    ensures |r| <= |s|
  {
    TrimEnd(TrimStart(s))
  }

  /** `TrimStart` returns a suffix whose dropped prefix is all white space and which
      does not itself start with white space. */
  lemma {:induction false} TrimStartShape(s: string)
    ensures |TrimStart(s)| <= |s| && TrimStart(s) == s[|s| - |TrimStart(s)|..]
    ensures IsBlank(s[..|s| - |TrimStart(s)|])
    ensures TrimStart(s) != [] ==> !IsSpace(TrimStart(s)[0])
  {
    if |s| > 0 && IsSpace(s[0]) {
      TrimStartShape(s[1..]);
      var r := TrimStart(s[1..]);
      assert s[1..][|s| - 1 - |r|..] == s[|s| - |r|..];
      assert s[..|s| - |r|] == [s[0]] + s[1..][..|s| - 1 - |r|];
    }
  }

  /** `TrimEnd` returns a prefix whose dropped suffix is all white space and which does
      not itself end with white space. */
  lemma {:induction false} TrimEndShape(s: string)
    ensures |TrimEnd(s)| <= |s| && TrimEnd(s) == s[..|TrimEnd(s)|]
    ensures IsBlank(s[|TrimEnd(s)|..])
    ensures TrimEnd(s) != [] ==> !IsSpace(TrimEnd(s)[|TrimEnd(s)| - 1])
  {
    if |s| > 0 && IsSpace(s[|s| - 1]) {
      var s' := s[..|s| - 1];
      TrimEndShape(s');
      var r := TrimEnd(s');
      assert s'[..|r|] == s[..|r|];
      assert s[|r|..] == s'[|r|..] + [s[|s| - 1]];
    }
  }

  /** The trim is empty exactly when `s` is blank, and otherwise starts and ends with a
      character that is not white space. */
  lemma TrimShape(s: string)
    ensures Trim(s) == [] <==> IsBlank(s)
    ensures Trim(s) != [] ==> !IsSpace(Trim(s)[0]) && !IsSpace(Trim(s)[|Trim(s)| - 1])
  {
    var t := TrimStart(s);
    var r := TrimEnd(t);
    TrimStartShape(s);
    TrimEndShape(t);
    if r == [] {
      assert s == s[..|s| - |t|] + t;
      assert t == t[|r|..];
    } else {
      assert t[0] == r[0];
    }
  }

  /** Number of occurrences of `d` in `s`. */
  function Count(s: string, d: char): nat
  {
    if s == [] then 0 else (if s[0] == d then 1 else 0) + Count(s[1..], d)
  }

  /** `s.split(d)` for a one-character separator: the pieces between occurrences of `d`,
      one more piece than there are separators, none containing `d`. */
  function Split(s: string, d: char): (r: seq<string>)
    ensures |r| == Count(s, d) + 1
  {
    if s == [] then [[]]
    else
      var rest := Split(s[1..], d);
      if s[0] == d then [[]] + rest
      else [[s[0]] + rest[0]] + rest[1..]
  }

  /** No piece of a split contains the separator. */
  lemma {:induction false} SplitPiecesFree(s: string, d: char)
    ensures forall i :: 0 <= i < |Split(s, d)| ==> d !in Split(s, d)[i]
  {
    if s != [] {
      SplitPiecesFree(s[1..], d);
      var rest := Split(s[1..], d);
      if s[0] != d {
        assert Split(s, d)[1..] == rest[1..];
      } else {
        assert Split(s, d)[1..] == rest;
      }
    }
  }

  /** `parts.join(sep)`. */
  function Join(parts: seq<string>, sep: string): string
  {
    if |parts| == 0 then []
    else if |parts| == 1 then parts[0]
    else parts[0] + sep + Join(parts[1..], sep)
  }

  /** `p` occurs in `s` starting at index `i`. */
  predicate OccursAt(s: string, p: string, i: int)
  {
    0 <= i <= |s| - |p| && s[i..i + |p|] == p
  }

  /** `s.includes(p)`: `p` occurs somewhere in `s` as a contiguous run. */
  function Contains(s: string, p: string): (r: bool)
    ensures r <==> exists i :: OccursAt(s, p, i)
  {
    if |p| > |s| then false
    else if s[..|p|] == p then assert OccursAt(s, p, 0); true
    else
      var r := Contains(s[1..], p);
      assert r ==> exists i :: OccursAt(s, p, i) by {
        if r {
          var j :| OccursAt(s[1..], p, j);
          assert s[j + 1..j + 1 + |p|] == s[1..][j..j + |p|];
          assert OccursAt(s, p, j + 1);
        }
      }
      assert (exists i :: OccursAt(s, p, i)) ==> r by {
        if exists i :: OccursAt(s, p, i) {
          var i :| OccursAt(s, p, i);
          assert i != 0;
          assert s[1..][i - 1..i - 1 + |p|] == s[i..i + |p|];
          assert OccursAt(s[1..], p, i - 1);
        }
      }
      r
  }

  /** Splitting and joining with the same separator gives back the original string. */
  lemma {:induction false} JoinSplit(s: string, d: char)
    ensures Join(Split(s, d), [d]) == s
  {
    if s == [] {
    } else {
      var rest := Split(s[1..], d);
      JoinSplit(s[1..], d);
      if s[0] == d {
        assert Split(s, d) == [[]] + rest;
        assert Join([[]] + rest, [d]) == [] + [d] + Join(rest, [d]);
        assert s == [d] + s[1..];
      } else {
        var r := [[s[0]] + rest[0]] + rest[1..];
        assert Split(s, d) == r;
        if |rest| == 1 {
          assert Join(rest, [d]) == rest[0];
        } else {
          assert Join(rest, [d]) == rest[0] + [d] + Join(rest[1..], [d]);
          assert r[1..] == rest[1..];
          assert Join(r, [d]) == ([s[0]] + rest[0]) + [d] + Join(rest[1..], [d]);
        }
        assert s == [s[0]] + s[1..];
      }
    }
  }

  /** A string free of the separator is one piece. */
  lemma {:induction false} SplitWhole(w: string, d: char)
    requires d !in w
    ensures Split(w, d) == [w]
  {
    if w != [] {
      SplitWhole(w[1..], d);
      assert w == [w[0]] + w[1..];
    }
  }

  /** A separator-free prefix followed by the separator becomes the first piece. */
  lemma {:induction false} SplitAfter(w: string, d: char, y: string)
    requires d !in w
    ensures Split(w + [d] + y, d) == [w] + Split(y, d)
  {
    if w == [] {
      assert w + [d] + y == [d] + y;
      assert ([d] + y)[1..] == y;
    } else {
      SplitAfter(w[1..], d, y);
      var s := w + [d] + y;
      assert s[1..] == w[1..] + [d] + y;
      assert s[0] == w[0];
      assert w == [w[0]] + w[1..];
    }
  }

  /** Joining separator-free pieces and splitting again gives back the pieces. */
  lemma {:induction false} SplitJoin(ws: seq<string>, d: char)
    requires |ws| >= 1
    requires forall i :: 0 <= i < |ws| ==> d !in ws[i]
    ensures Split(Join(ws, [d]), d) == ws
  {
    if |ws| == 1 {
      SplitWhole(ws[0], d);
    } else {
      SplitJoin(ws[1..], d);
      SplitAfter(ws[0], d, Join(ws[1..], [d]));
      assert ws == [ws[0]] + ws[1..];
    }
  }

  /** Joining two non-empty lists of parts is joining each and putting the separator
      between them. */
  lemma {:induction false} JoinAppend(xs: seq<string>, ys: seq<string>, sep: string)
    requires xs != [] && ys != []
    ensures Join(xs + ys, sep) == Join(xs, sep) + sep + Join(ys, sep)
  {
    var zs := xs + ys;
    assert zs[0] == xs[0];
    if |xs| == 1 {
      assert zs[1..] == ys;
    } else {
      JoinAppend(xs[1..], ys, sep);
      assert zs[1..] == xs[1..] + ys;
    }
  }

  /** A separator splits the string around it: the pieces before it, then the pieces
      after it. */
  lemma SplitAtSeparator(x: string, d: char, y: string)
    ensures Split(x + [d] + y, d) == Split(x, d) + Split(y, d)
  {
    var px, py := Split(x, d), Split(y, d);
    JoinSplit(x, d);
    JoinSplit(y, d);
    JoinAppend(px, py, [d]);
    SplitPiecesFree(x, d);
    SplitPiecesFree(y, d);
    assert forall i :: 0 <= i < |px + py| ==> d !in (px + py)[i] by {
      forall i | 0 <= i < |px + py|
        ensures d !in (px + py)[i]
      {
        if i >= |px| {
          assert (px + py)[i] == py[i - |px|];
        }
      }
    }
    SplitJoin(px + py, d);
  }

  /** A string with no white space at either end is its own trim. */
  lemma TrimNoEdges(w: string)
    requires w != [] ==> !IsSpace(w[0]) && !IsSpace(w[|w| - 1])
    ensures Trim(w) == w
  {
    if w != [] {
      assert TrimStart(w) == w;
      assert TrimEnd(w) == w;
    }
  }

  /** A trimmed string is its own trim only if it has no white space at either end. */
  lemma TrimmedEdges(t: string)
    requires Trim(t) == t
    ensures t != [] ==> !IsSpace(t[0]) && !IsSpace(t[|t| - 1])
  {
    TrimShape(t);
  }

  /** Trimming a string that is already trimmed, after one leading space, gives it back. */
  lemma PaddedTrim(t: string)
    requires Trim(t) == t
    ensures Trim(" " + t) == t
  {
    TrimmedEdges(t);
    assert (" " + t)[1..] == t;
    assert TrimStart(" " + t) == TrimStart(t);
    if t != [] {
      assert TrimStart(t) == t;
    }
  }

  /** Trimming a string that is already trimmed, padded with one space on each side,
      gives it back. */
  lemma PaddedBothTrim(t: string)
    requires Trim(t) == t
    ensures Trim(" " + t + " ") == t
  {
    TrimmedEdges(t);
    var p := " " + t + " ";
    var q := t + " ";
    assert p[1..] == q;
    assert TrimStart(p) == TrimStart(q);
    if t == [] {
      assert q[1..] == [];
      assert TrimStart(q) == [];
    } else {
      assert q[0] == t[0];
      assert TrimStart(q) == q;
      assert q[..|q| - 1] == t;
      assert TrimEnd(q) == TrimEnd(t);
      assert TrimEnd(t) == t;
    }
  }
}

=== FILE: updatepost.dfy ===
/** The edit page: it loads a post by slug, shows the form filled with it (or the
    not-found view once loading failed), and sends the form body back as an update.
    Tag arrays arrive from the backend and are flattened to one `", "`-joined string,
    which the form later splits again. */
module UpdatePost {
  import opened Base
  import opened Text
  import opened JsObject
  import Tags
  import PostForm

  /** The page's state: the loaded post (`null` until the fetch succeeds), whether the
      fetch failed, and whether an update is outstanding. */
  datatype Page = Page(postInfo: Option<Record>, notFound: bool, busy: bool)

  /** What the page hands to the outside world. */
  datatype Effect =
    | Notify(message: string)
    | RequestUpdate(id: Value, data: FormData)
    | Throw

  datatype Step = Step(page: Page, effects: seq<Effect>)

  /** What is on screen: the not-found view, or the form with its props. */
  datatype View = NotFoundView | FormView(initialPost: Option<Record>, busy: bool)

  const Initial: Page := Page(None, false, false)

  /** `{ ...post, tags: post.tags?.join(", ") }`: an array of tags becomes one string, a
      missing `tags` stays `undefined`, and a value with no `join` throws (`None`). */
  function FlattenTags(post: Record): (r: Option<Record>)
    ensures Get(post, "tags").List? ==> r == Some(Set(post, "tags", Text(Join(Get(post, "tags").items, ", "))))
    ensures Get(post, "tags").Undefined? ==> r == Some(Set(post, "tags", Undefined))
    ensures r.None? <==> Get(post, "tags").Text? || Get(post, "tags").Flag? || Get(post, "tags").Picture?
  {
    match Get(post, "tags")
    case List(items) => Some(Set(post, "tags", Text(Join(items, ", "))))
    case Undefined => Some(Set(post, "tags", Undefined))
    case _ => None
  }

  /** `fetchPost` once `getPost` settles: an error marks the page not found and is
      shown; a post is flattened and becomes the page's post. */
  function Fetched(pg: Page, response: Result<Record, string>): (s: Step)
    ensures response.Err? ==> s == Step(pg.(notFound := true), [Notify(response.error)])
    ensures response.Ok? && FlattenTags(response.value).Some? ==>
      s == Step(pg.(postInfo := FlattenTags(response.value)), [])
    ensures response.Ok? && FlattenTags(response.value).None? ==> s == Step(pg, [Throw])
    ensures s.page.busy == pg.busy
  {
    match response
    case Err(e) => Step(pg.(notFound := true), [Notify(e)])
    case Ok(post) =>
      match FlattenTags(post)
      case None => Step(pg, [Throw])
      case Some(p) => Step(pg.(postInfo := Some(p)), [])
  }

  /** The start of `handleSubmit`: the page turns busy, then the update is sent for
      the `id` of the loaded post; with no post loaded, reading `id` of `null` throws
      and the page stays busy. */
  function StartUpdate(pg: Page, data: FormData): (s: Step)
    ensures s.page.busy
    ensures s.page.postInfo == pg.postInfo && s.page.notFound == pg.notFound
    ensures pg.postInfo.Some? ==> s.effects == [RequestUpdate(Get(pg.postInfo.value, "id"), data)]
    ensures pg.postInfo.None? ==> s.effects == [Throw]
  {
    var busy := pg.(busy := true);
    match pg.postInfo
    case None => Step(busy, [Throw])
    case Some(p) => Step(busy, [RequestUpdate(Get(p, "id"), data)])
  }

  /** The rest of `handleSubmit`, once `updatePost` settles: the page is no longer
      busy; an error is shown and the post kept; a returned post is flattened and
      replaces it. */
  function FinishUpdate(pg: Page, response: Result<Record, string>): (s: Step)
    ensures !s.page.busy
    ensures s.page.notFound == pg.notFound
    ensures response.Err? ==> s == Step(pg.(busy := false), [Notify(response.error)])
    ensures response.Ok? && FlattenTags(response.value).Some? ==>
      s.page.postInfo == FlattenTags(response.value) && s.effects == []
    ensures response.Ok? && FlattenTags(response.value).None? ==> s == Step(pg.(busy := false), [Throw])
  {
    var idle := pg.(busy := false);
    match response
    case Err(e) => Step(idle, [Notify(e)])
    case Ok(post) =>
      match FlattenTags(post)
      case None => Step(idle, [Throw])
      case Some(p) => Step(idle.(postInfo := Some(p)), [])
  }

  /** `if (notFound) return <NotFound />`, otherwise the form with the loaded post. */
  function Render(pg: Page): (v: View)
    ensures v == NotFoundView <==> pg.notFound
    ensures v.FormView? ==> v.initialPost == pg.postInfo && v.busy == pg.busy
  {
    if pg.notFound then NotFoundView else FormView(pg.postInfo, pg.busy)
  }

  datatype Event =
    | FetchSettled(response: Result<Record, string>)
    | SubmitStarted(data: FormData)
    | UpdateSettled(response: Result<Record, string>)

  function Apply(pg: Page, e: Event): Page
  {
    match e
    case FetchSettled(r) => Fetched(pg, r).page
    case SubmitStarted(d) => StartUpdate(pg, d).page
    case UpdateSettled(r) => FinishUpdate(pg, r).page
  }

  /** The page after a run of events, in order. */
  function Run(pg: Page, events: seq<Event>): Page
    decreases |events|
  {
    if events == [] then pg else Run(Apply(pg, events[0]), events[1..])
  }

  /** Once the page is not found it stays so, whatever follows, and only the not-found
      view is rendered. */
  lemma {:induction false} NotFoundSticks(pg: Page, events: seq<Event>)
    requires pg.notFound
    ensures Run(pg, events).notFound
    ensures Render(Run(pg, events)) == NotFoundView
    decreases |events|
  {
    if events != [] {
      NotFoundSticks(Apply(pg, events[0]), events[1..]);
    }
  }

  /** A failed fetch renders the not-found view from then on. */
  lemma FetchErrorNotFound(pg: Page, error: string, events: seq<Event>)
    ensures Render(Run(pg, [FetchSettled(Err(error))] + events)) == NotFoundView
  {
    var after := Fetched(pg, Err(error)).page;
    assert ([FetchSettled(Err(error))] + events)[1..] == events;
    NotFoundSticks(after, events);
  }

  /** `busy` is up between the start of an update and its settling, and down after it
      whatever the outcome; the update is sent for the loaded post's `id`. */
  lemma BusyDuringUpdate(pg: Page, p: Record, data: FormData, response: Result<Record, string>)
    requires pg.postInfo == Some(p)
    ensures StartUpdate(pg, data).page.busy
    ensures StartUpdate(pg, data).effects == [RequestUpdate(Get(p, "id"), data)]
    ensures !FinishUpdate(StartUpdate(pg, data).page, response).page.busy
    ensures response.Err? ==> FinishUpdate(StartUpdate(pg, data).page, response).page.postInfo == Some(p)
  {
  }

  /** Before the fetch settles the form is shown with no post; once it delivers a post,
      the form is shown with that post, its tags flattened, and the page is not busy. */
  lemma LoadFromInitial(post: Record)
    requires FlattenTags(post).Some?
    ensures Render(Initial) == FormView(None, false)
    ensures Render(Run(Initial, [FetchSettled(Ok(post))])) == FormView(FlattenTags(post), false)
  {
    assert [FetchSettled(Ok(post))][1..] == [];
  }

  /** Flattening the tags keeps a post's keys distinct. */
  lemma FlattenKeepsKeysDistinct(post: Record)
    requires DistinctKeys(post)
    requires FlattenTags(post).Some?
    ensures DistinctKeys(FlattenTags(post).value)
  {
    match Get(post, "tags")
    case List(items) => SetDistinct(post, "tags", Text(Join(items, ", ")));
    case _ => SetDistinct(post, "tags", Undefined);
  }

  // ----- The tag round trip across the edit page and the form -----

  /** A fetched post whose tags are clean (trimmed, no comma) is flattened so that the
      form, on submit, normalises the flattened string back to the same tags, cut to
      the first four. */
  lemma TagsSurviveEdit(post: Record, ts: seq<string>)
    requires Get(post, "tags") == List(ts)
    requires |ts| >= 1
    requires forall i :: 0 <= i < |ts| ==> Tags.IsCleanTag(ts[i])
    ensures FlattenTags(post).Some?
    ensures Get(FlattenTags(post).value, "tags") == Text(Join(ts, ", "))
    ensures Tags.Normalize(Join(ts, ", ")) == ts[..Min(Tags.MaxTags, |ts|)]
  {
    SetGet(post, "tags", Text(Join(ts, ", ")));
    Tags.NormalizeJoined(ts);
  }

  lemma FlattenedTagsEmpty(post: Record)
    requires Get(post, "tags") == List([])
    ensures FlattenTags(post).Some? && Get(FlattenTags(post).value, "tags") == Text([])
  {
    SetGet(post, "tags", Text(Join([], ", ")));
  }

  /** A fetched post with an empty tag array flattens to the empty string, so the
      form refuses to submit it, once title and content are filled, until tags are
      typed in. */
  lemma EmptyTagsBlockResubmit(f: PostForm.Form, post: Record)
    requires Get(post, "tags") == List([])
    requires FlattenTags(post).Some? && f.postInfo == FlattenTags(post).value
    requires PostForm.Filled(Get(f.postInfo, "title")) && PostForm.Filled(Get(f.postInfo, "content"))
    ensures PostForm.SubmitForm(f) == PostForm.Step(f, [PostForm.Notify(PostForm.Error, "Tags are necessary")])
  {
    FlattenedTagsEmpty(post);
    PostForm.SubmitBlankTags(f);
  }
}
